=== FILE: README.md ===
# Minesweeper engine model

A Dafny model of the Minesweeper engine in `src/engine/`. The engine has three layers:

- A **cell** holds four booleans: clicked, mine, flagged and questioned. It has a derived nine-way display state, plus `click` and `rightClick`.
- A **board** is a rows × columns grid of cells. It covers constructor validation and 8-neighbour adjacency. It also covers depth-first flood-fill, `explode` and the chord click. Finally it covers the remaining-mine counter, the derived game state and the clean-up after a win.
- A **game** is a board plus the lifecycle Idle → Active → Won/Lost, and it ignores input once the game is over. `deserializeGame` rebuilds a game from a plain snapshot.

Once the mine positions are fixed, the engine is deterministic. The model takes the placement as an input. Every operation returns a new value instead of mutating in place.

Files, one module each:

- `errors.dfy` (`Errors`): the engine's thrown errors as a `Result`.
- `cell.dfy` (`Cells`): the cell, its display state and the state tables.
- `grids.dfy` (`Grids`): positions and counting over a grid.
- `game_state.dfy` (`GameStates`): the lifecycle enum.
- `board.dfy` (`Boards`): the board and its operations.
- `floodfill.dfy` (`FloodfillFacts`): what flood-fill reveals.
- `game.dfy` (`Games`): the game wrapper.
- `snapshot.dfy` (`Snapshots`): snapshots and `deserializeGame`.

Where the engine throws, the model returns `Err`:

| engine throws | model returns |
|---|---|
| mine count out of range | `MinesOutOfRange` |
| rows out of range | `RowsOutOfRange` |
| columns out of range | `ColumnsOutOfRange` |
| cell index outside the grid | `CellOutOfBounds` |
| `deserializeGame` on a grid with too few rows | `MalformedSnapshot` |

## Model

| member | source | states |
|---|---|---|
| Cells.NewCell | src/engine/Cell.js:35-40 | A new cell shows Unclicked. |
| Cells.Display | src/engine/Cell.js:16-33 | The display state is never Invalid. It is in the mine table iff the cell is a mine, and in the clicked table iff the cell is clicked. It is in the flagged table iff the cell is flagged and not clicked. It is Questioned/QuestionedMine iff the cell is questioned, not flagged and not clicked. This pins down all nine cases of the `cellState` getter. |
| Cells.ClickCell | src/engine/Cell.js:79-83 | A flagged or questioned cell is unchanged. Any other cell ends in a clicked state. The mine bit is kept, and consistency (exclusive markers, no marker on a clicked cell) is preserved. |
| Cells.RightClickCell | src/engine/Cell.js:84-97 | A clicked cell is unchanged. The mine and clicked bits are kept, and consistency is preserved. |
| Cells.SetMine | src/engine/Cell.js:98-104 | The mine bit takes the given value. The clicked, flagged and questioned bits are kept, so membership in the unclicked and flagged tables is kept too. |
| Cells.RightClickFollowsCycle | src/engine/Cell.js:84-97 | On a consistent cell, a right-click moves the display one step along none → flag → question → none, for mines and safe cells alike. |
| Cells.RightClickCycleLength | src/engine/Cell.js:84-97 | Three right-clicks restore a consistent cell exactly. A right-click changes the cell iff the cell is not clicked. |
| Cells.ClickIdempotent | src/engine/Cell.js:79-83 | Clicking twice equals clicking once. |
| Cells.DisplayDeterminesCell | src/engine/Cell.js:41-77 | Two consistent cells with the same display state are equal. |
| Grids.CountGridUpdate | src/engine/Board.js:101-110 | Replacing one grid entry changes a count by exactly that entry's contribution. |
| Grids.CountGridPositive | src/engine/Board.js:72-78 | A count is positive iff some entry matches. This is what the state tally in `calculateGameState` relies on. |
| Grids.CountGridIsCardinality | src/engine/Board.js:244-256 | A helper for the mine placement: the recursive count equals the size of the set of matching positions. Boards.NewBoard uses it to show that `mines` distinct placed positions give exactly `mines` mine cells, as the `addedMines` tally of `addMines` does. |
| Grids.CountGridFull | src/engine/Board.js:289-290 | A helper for the mine bound: if every entry of a rows × columns grid matches, the count is rows·columns. With at most rows·columns/2 mines on a non-empty grid, some cell is therefore not a mine (Games.FreshGameHasSafeCell). |
| Boards.GetCell | src/engine/Board.js:159-164 | The result is an error iff the index is outside the grid, and that error is CellOutOfBounds. Otherwise it is the stored cell. |
| Boards.InBounds | src/engine/Board.js:221-227 | On a well-formed board, an index is in bounds exactly when it addresses a stored cell: the row is an index into the grid and the column an index into that row. |
| Boards.GetCellState | src/engine/Board.js:171-176 | The result is an error iff the index is outside the grid, and that error is CellOutOfBounds. Otherwise it is the display state of the stored cell, which is never Invalid and is a mine state iff the cell is a mine. |
| Boards.Neighbors | src/engine/Board.js:207-227 | At most 8 positions, none listed twice. A position is listed iff it is inside the grid and one of the eight cells around the index. |
| Boards.NeighborMines | src/engine/Board.js:131-138 | Returns 0 outside the grid. Inside, it equals the number of in-grid cells around the index that hold a mine, counted over the 3×3 square independently of the neighbour list. So it is at most 8, and 0 iff no adjacent cell holds a mine. |
| Boards.NeighborFlags | src/engine/Board.js:145-152 | Returns 0 outside the grid. Inside, it equals the number of in-grid cells around the index that show Flagged/FlaggedMine, counted over the 3×3 square. So it is at most 8, and 0 iff no adjacent cell shows a flag. |
| Boards.NeighborMinesIgnoresMarkers | src/engine/Board.js:131-138 | Boards with the same mine bits have the same neighbour mine counts, whatever flags or question marks they carry. |
| Boards.IsFullyFlaggedCell | src/engine/Board.js:266-269 | A cell is fully flagged iff it shows Clicked and the cells around it showing a flag are exactly as many as the cells around it holding a mine, both counted over the 3×3 square. |
| Boards.Explode | src/engine/Board.js:195-203 | Every UnclickedMine becomes ClickedMine. Every other cell keeps its display state, including flagged and questioned mines. Only unmarked unclicked cells change. |
| Boards.ClickOne | src/engine/Board.js:183-184 | The first step of the flood-fill on an Unclicked cell: that cell ends Clicked, no other cell changes, only safe unmarked cells are touched, and the number of Unclicked cells drops by exactly one. |
| Boards.Floodfill | src/engine/Board.js:180-191 | Only Unclicked cells change, and each one only becomes clicked. Mines, flags and question marks are untouched. An Unclicked start cell ends Clicked, and any other start leaves the board unchanged. The number of Unclicked cells does not grow, and the recursion terminates on that count. |
| Boards.ClickAllNeighbors | src/engine/Board.js:114-124 | Afterwards no neighbour is Unclicked or UnclickedMine. An UnclickedMine neighbour leaves no UnclickedMine anywhere on the board. Without one, only safe cells were revealed. What else it may reveal is bounded by FloodfillFacts.ChordIsFillEach and FloodfillFacts.ChordSupported. |
| Boards.CalculateGameState | src/engine/Board.js:70-82 | Lost iff some cell shows ClickedMine. Won iff no mine was clicked and no cell shows Unclicked, Flagged or Questioned. Otherwise Active, and never Idle. |
| Boards.CalculateMineCount | src/engine/Board.js:87-97 | The nested scan returns the total mines minus the number of Flagged/FlaggedMine cells. That is never more than the total, and may be negative. |
| Boards.FlagRemainingMines | src/engine/Board.js:274-287 | The net effect of the win clean-up: every QuestionedMine or UnclickedMine ends FlaggedMine, all other cells keep their state, and the counter is recomputed. |
| Boards.CleanUpGameIfNecessary | src/engine/Board.js:274-287 | Only a Won state triggers the clean-up; any other state leaves the board as it is. On a win the dimensions and mine bits are kept, safe cells are untouched, and every mine that was not clicked ends FlaggedMine. |
| Boards.FlagRemainingMinesKeepsGameState | src/engine/Board.js:274-287 | The clean-up does not change the derived game state. |
| Boards.WonBoardFlagsEveryMine | src/engine/Board.js:274-287 | After the clean-up on a won board, every mine shows FlaggedMine and the flag count equals the number of mine cells. |
| Boards.Settle | src/engine/Board.js:43-46 | The tail shared by click and right-click. The counter is mines minus flags, and the reported state is never Idle. The state equals the one derived before and after the clean-up. Safe cells are unchanged. A win flags every mine and, when the mine cells number `mines`, leaves the counter at 0. |
| Boards.Click | src/engine/Board.js:32-47 | The result is an error iff the index is outside the grid. Otherwise the dimensions and mine bits are kept, and the counter is mines minus flags. The reported state is the derived one and never Idle. Unless the game is won, the click only reveals unmarked unclicked cells. What each branch does is stated by Boards.ClickMineLoses, FloodfillFacts.ClickUnclickedExtent, FloodfillFacts.ClickChordExtent and Boards.ClickNoChange. On a win, the clean-up leaves every mine showing FlaggedMine, and the counter at 0 when the board holds `mines` mines. |
| Boards.SameMinesSameMineCellCount | src/engine/Board.js:32-66 | Boards with the same mine bits have the same number of mine cells, so neither click nor right-click changes it. |
| Boards.ClickMineLoses | src/engine/Board.js:37-39 | Clicking an UnclickedMine reports Lost. Every UnclickedMine on the board ends ClickedMine, and every other cell keeps its display state, flagged and questioned mines included. |
| Boards.ClickUnclickedReveals | src/engine/Board.js:34-36 | Clicking an Unclicked cell leaves it clicked. The result is Lost iff a mine was already clicked before. The extent of the flood-fill the click performs is stated by FloodfillFacts.ClickUnclickedExtent. |
| Boards.ClickNoChange | src/engine/Board.js:32-47 | If the cell is already clicked or marked and the chord condition fails, a click leaves the grid unchanged, unless the game counts as won. |
| Boards.ClickChord | src/engine/Board.js:40-41 | On a Clicked cell whose neighbour flags equal its neighbour mines, afterwards no neighbour is Unclicked or UnclickedMine. An unflagged mine among the neighbours loses the game. What else the click may reveal is bounded by FloodfillFacts.ClickChordExtent. |
| Boards.RightClick | src/engine/Board.js:54-66 | The result is an error iff the index is outside the grid. On an unclicked cell, short of a win, only that cell changes, by the cell-level right-click. Otherwise it chords, with the extent stated by FloodfillFacts.RightClickChordExtent, or changes nothing. The counter and state are as for Click, and so is the clean-up on a win: every mine shows FlaggedMine, and the counter reads 0 when the board holds `mines` mines. |
| Boards.RightClickCyclesMarker | src/engine/Board.js:56-58 | A right-click on a consistent unclicked cell advances its marker one step of the cycle and leaves every other cell alone. |
| Boards.FlagLowersMineCount | src/engine/Board.js:62 | Flagging an unmarked cell lowers the counter by exactly one, mine or not. Nothing stops it at zero. |
| Boards.RightClickChord | src/engine/Board.js:59-61 | The chord from a right-click settles every neighbour, and loses on an unflagged neighbouring mine. What else it may reveal is bounded by FloodfillFacts.RightClickChordExtent. |
| Boards.ClickKeepsConsistent | src/engine/Board.js:32-47 | After a click, every cell is still consistent: never both flagged and questioned, and no marker on a clicked cell. |
| Boards.RightClickKeepsConsistent | src/engine/Board.js:54-66 | The same holds after a right-click. |
| Boards.ValidateInputs | src/engine/Board.js:288-299 | The mine bound (0 ≤ mines ≤ rows·columns/2) is checked first, then rows ∈ [1,100], then columns ∈ [1,100]. Each failure has its own error, and the inputs are accepted iff all three hold. |
| Boards.NewBoard | src/engine/Board.js:17-25 | Fails iff validation fails, with the same error. Otherwise the dimensions are as given and `mines` and `mineCount` equal the requested count. A cell holds a mine iff it is in the placement, every cell shows Unclicked or UnclickedMine, and the number of mine cells is `mines`. |
| FloodfillFacts.FloodfillClosed | src/engine/Board.js:183-189 | After a flood-fill the start cell is not Unclicked. No cell it revealed that has no adjacent mine is left with an Unclicked neighbour. |
| FloodfillFacts.FloodfillSupported | src/engine/Board.js:183-189 | Every cell a flood-fill reveals is the start cell or sits next to a revealed cell with no adjacent mine. |
| FloodfillFacts.FloodfillRevealsMineFreeBoard | src/engine/Board.js:180-191 | On a board with no mines and no markers, a flood-fill from any cell clicks every cell. |
| FloodfillFacts.ClickEachIsFillEach | src/engine/Board.js:116-123 | When none of the cells is an UnclickedMine, clicking them one by one equals flood-filling from each in turn. |
| FloodfillFacts.ClickEachSupportedClosed | src/engine/Board.js:116-123 | Clicking the cells one by one, exploding or not, reveals a safe cell only at one of them or next to a revealed cell with no adjacent mine, and leaves no Unclicked cell beside a revealed cell with no adjacent mine. |
| FloodfillFacts.ChordIsFillEach | src/engine/Board.js:114-124 | Without an UnclickedMine around the cell, the chord is exactly a flood-fill from each in-grid neighbour in neighbour order. |
| FloodfillFacts.ChordSupported | src/engine/Board.js:114-124 | Whatever the neighbours hold, every safe cell the chord reveals is a neighbour of the cell or sits next to a revealed cell with no adjacent mine, and no revealed cell with no adjacent mine is left beside an Unclicked cell. |
| FloodfillFacts.ClickUnclickedExtent | src/engine/Board.js:34-36 | Clicking an Unclicked cell reveals a safe cell only at that cell or next to a revealed cell with no adjacent mine. No revealed cell with no adjacent mine is left beside an Unclicked cell, whatever the state the click reports. |
| FloodfillFacts.ClickChordExtent | src/engine/Board.js:40-41 | A click on a fully flagged cell reveals a safe cell only at a neighbour of it or next to a revealed cell with no adjacent mine, and leaves no revealed cell with no adjacent mine beside an Unclicked cell. |
| FloodfillFacts.RightClickChordExtent | src/engine/Board.js:59-61 | A right-click on a fully flagged cell is bounded the same way. |
| FloodfillFacts.ClickRevealsMineFreeBoard | src/engine/Board.js:32-47 | On such a board one click reveals every cell and reports Won. |
| Games.NewGame | src/engine/Game.ts:8-12 | Fails exactly as the board constructor does. Otherwise it gives an Idle game with the requested dimensions and mine count, which satisfies the game invariant. |
| Games.Click | src/engine/Game.ts:24-30 | Won or Lost returns the game unchanged. Otherwise the board's click is applied at the index and its board and reported state become the game's. The result is an error iff the index is outside the grid, and the new state is the board's derived state, never Idle. The mine bits are kept. Clicking an UnclickedMine gives Lost, clicking an Unclicked cell leaves it Clicked, and short of a win a click only reveals unmarked unclicked cells. |
| Games.RightClick | src/engine/Game.ts:38-44 | Won or Lost returns the game unchanged. Otherwise the board's right-click is applied at the index and its board and reported state become the game's. The result is an error iff the index is outside the grid, the new state is the derived one and never Idle, and the mine bits are kept. On a consistent unclicked cell, short of a win, the marker advances one step of the cycle and no other cell changes. |
| Games.MovesKeepInv | src/engine/Game.js:26-45 | Both moves preserve the game invariant: a well-formed board of consistent cells holding `mines` mine cells, with counter = mines − flags. An Idle game is untouched, any other state equals the board's derived state, and a Won game shows every mine as FlaggedMine with the counter at 0. |
| Games.WinningMoveCleansUp | src/engine/Game.test.ts:41-64 | From any game satisfying the invariant, a click or right-click that returns Won leaves every mine showing FlaggedMine and the counter at 0. |
| Games.TerminalAbsorbs | src/engine/Game.js:26-29 | After Won or Lost, click and right-click return the game unchanged. |
| Games.NeverIdleAgain | src/engine/Game.ts:28 | A game that has left Idle never returns to it. |
| Games.FreshGameHasSafeCell | src/engine/Board.js:289-292 | Because at most half the cells are mines, a new game has an Unclicked cell. |
| Games.FirstRightClickActivates | src/engine/Game.ts:38-44 | From Idle, any right-click inside the grid gives Active. |
| Games.FirstClickOnMineLoses | src/engine/Game.ts:24-30 | From Idle, clicking a mine gives Lost. This holds on any well-formed untouched board, including one whose mines were set by hand after construction. |
| Games.FirstSafeClick | src/engine/Game.ts:24-30 | From Idle, clicking a safe cell gives Active or Won. It gives Won iff every safe cell is then revealed. This holds on any well-formed untouched board, including one whose mines were set by hand after construction. |
| Games.MineFreeGameWonInOneClick | src/engine/Game.ts:24-30 | A fresh game created with 0 mines is won by its first click, which reveals every cell. |
| Snapshots.Deserialize | src/engine/Game.ts:47-60 | Fails iff the snapshot declares more rows than its grid has and at least one column. Otherwise the state, rows, columns, mines and counter come from the snapshot, and every cell copies its four fields. Rows shorter than `columns` are extended with fresh cells. |
| Snapshots.DeserializeIgnoresPlaceholders | src/engine/Game.js:49-62 | The result does not depend on the two placeholder 10×10 games the engine builds first, so their random mines never survive. |
| Snapshots.DeserializeSerialize | src/engine/Game.ts:47-60 | Restoring the snapshot of a game gives back the same game, down to every cell, the counter and the state. |
| Snapshots.SerializeDeserialize | src/engine/Game.ts:47-60 | A snapshot with `rows` rows of `columns` cells restores to a playable game whose own snapshot is the original. |
| Snapshots.DeserializedBoardWf | src/engine/Game.ts:50-56 | A restored board is well formed iff the snapshot grid has exactly `rows` rows, `columns` is not negative, and no row is longer than `columns`. |

## Left out

- Random mine placement is replaced by an input set of `mines` in-grid positions. This covers `addMines`, `getRandomInt` and `Math.random`, including the loop that terminates only with probability 1. The board constructor checks nothing about the placement, because it stands in for the random draws.
- lodash `cloneDeep` is not modelled: every operation returns a new value.
- The socket.io/express server and the React client are not part of this model.
- The older prototype engine under `client/src/engine` is not part of this model.
- Error message text is not modelled; each error is a distinct variant.
- Rows, columns and mines are integers. Fractional, NaN or non-numeric arguments, which JavaScript would accept, are not modelled.
- `allCells` is a test helper and is not modelled. `getStateCounts` is modelled only through the counts that `calculateGameState` reads.
- Boards.FlagRemainingMines: the win clean-up re-enters through `rightClick`, which recomputes the counter and game state in between. Only the final grid and counter are modelled, not the intermediate re-entrant calls. The state reported to the caller is the one computed before the clean-up, as in the engine.
- Snapshots.Deserialize: snapshot entries beyond `rows` × `columns` stay plain data in the engine, but the model converts them to cells like the rest. Missing or mistyped snapshot fields are not modelled, apart from a grid with too few rows.
- FloodfillFacts.FloodfillSupported: it does not require the chain of supporting zero cells to lead back to the start cell. Together with FloodfillFacts.FloodfillClosed it bounds the revealed region from both sides, but it does not characterise that region uniquely.
- Boards.ClickAllNeighbors: its own contract states what the chord settles. The bound on what it may reveal is stated by FloodfillFacts.ChordIsFillEach and FloodfillFacts.ChordSupported, because the support and closure predicates belong to the flood-fill module.
- Boards.Click: what a flood-fill or chord may reveal is bounded by FloodfillFacts.ClickUnclickedExtent and FloodfillFacts.ClickChordExtent, because the support and closure predicates belong to the flood-fill module.
- Boards.RightClick: what its chord may reveal is bounded by FloodfillFacts.RightClickChordExtent, because the support and closure predicates belong to the flood-fill module.
- Boards.ClickUnclickedReveals: the extent of the flood-fill is stated by FloodfillFacts.ClickUnclickedExtent, because the support and closure predicates belong to the flood-fill module.
- Boards.ClickChord: the bound on what the chord may reveal is stated by FloodfillFacts.ClickChordExtent, because the support and closure predicates belong to the flood-fill module.
- Boards.RightClickChord: the bound on what the chord may reveal is stated by FloodfillFacts.RightClickChordExtent, because the support and closure predicates belong to the flood-fill module.

=== FILE: board.dfy ===
/**
  The board (src/engine/Board.js): a rows x columns grid of cells with the
  click, right-click, flood-fill, explosion and chord operations, the mine
  counter and the derivation of the game state. Every operation returns a
  new board instead of mutating the grid in place.
 */
module Boards {
  import opened Cells
  import opened Grids
  import opened GameStates
  import opened Errors

  datatype Board = Board(rows: int, columns: int, mines: int, mineCount: int, grid: seq<seq<Cell>>)

  /** What a board operation hands back: the new board and the game state it reports. */
  datatype Outcome = Outcome(board: Board, state: GameState)

  /** The grid is `rows` rows of `columns` cells each. */
  predicate Wf(b: Board) {
    && 0 <= b.rows && 0 <= b.columns
    && |b.grid| == b.rows
    && forall i :: 0 <= i < |b.grid| ==> |b.grid[i]| == b.columns
  }

  predicate InGrid(rows: int, columns: int, p: Pos) {
    0 <= p.row < rows && 0 <= p.column < columns
  }

  /** `isCellInBounds`: on a well-formed board, exactly the indices that
      address a stored cell. */
  predicate InBounds(b: Board, p: Pos): (r: bool)
    ensures Wf(b) ==> (r <==> 0 <= p.row < |b.grid| && 0 <= p.column < |b.grid[p.row]|)
  {
    InGrid(b.rows, b.columns, p)
  }

  function At(b: Board, p: Pos): Cell
    requires Wf(b) && InBounds(b, p)
  {
    b.grid[p.row][p.column]
  }

  function StateAt(b: Board, p: Pos): CellState
    requires Wf(b) && InBounds(b, p)
  {
    Display(At(b, p))
  }

  /** `getCell`: strict, an index outside the grid is an error. */
  function GetCell(b: Board, p: Pos): (r: Result<Cell>)
    requires Wf(b)
    ensures r.Ok? <==> InBounds(b, p)
    ensures r.Err? ==> r.error == CellOutOfBounds
    ensures r.Ok? ==> r.value == b.grid[p.row][p.column]
  {
    if !InBounds(b, p) then Err(CellOutOfBounds) else Ok(At(b, p))
  }

  /** `getCellState`: strict like `getCell`, and never `Invalid`. */
  function GetCellState(b: Board, p: Pos): (r: Result<CellState>)
    requires Wf(b)
    ensures r.Ok? <==> InBounds(b, p)
    ensures r.Err? ==> r.error == CellOutOfBounds
    ensures r.Ok? ==> r.value == Display(b.grid[p.row][p.column])
    ensures r.Ok? ==> r.value != Invalid && (r.value in MineStates <==> b.grid[p.row][p.column].mine)
  {
    if !InBounds(b, p) then Err(CellOutOfBounds) else Ok(StateAt(b, p))
  }

  /** Replace one cell. */
  function SetCell(b: Board, p: Pos, c: Cell): (r: Board)
    requires Wf(b) && InBounds(b, p)
    ensures Wf(r) && SameFrame(b, r) && r.mineCount == b.mineCount
    ensures At(r, p) == c
    ensures forall q :: InBounds(b, q) && q != p ==> At(r, q) == At(b, q)
  {
    b.(grid := b.grid[p.row := b.grid[p.row][p.column := c]])
  }

  /** Same dimensions and the same total number of mines. */
  predicate SameFrame(b: Board, r: Board) {
    r.rows == b.rows && r.columns == b.columns && r.mines == b.mines
  }

  // ---------------------------------------------------------------------------
  // Neighbours

  /** The eight offsets in the order the engine enumerates them: E, S, W, N, SE, NW, SW, NE. */
  const Offsets: seq<Pos> :=
    [Pos(0, 1), Pos(1, 0), Pos(0, -1), Pos(-1, 0), Pos(1, 1), Pos(-1, -1), Pos(1, -1), Pos(-1, 1)]

  function Shift(p: Pos, o: Pos): Pos {
    Pos(p.row + o.row, p.column + o.column)
  }

  /** One of the eight cells around `p`. */
  predicate Adjacent(p: Pos, q: Pos) {
    p != q && -1 <= p.row - q.row <= 1 && -1 <= p.column - q.column <= 1
  }

  /** No position occurs twice. */
  predicate Distinct(ns: seq<Pos>) {
    forall i, j :: 0 <= i < j < |ns| ==> ns[i] != ns[j]
  }

  function ShiftedInGrid(rows: int, columns: int, p: Pos, offs: seq<Pos>): (ns: seq<Pos>)
    ensures |ns| <= |offs|
    ensures forall n :: n in ns <==> InGrid(rows, columns, n) && exists o :: o in offs && n == Shift(p, o)
    ensures Distinct(offs) ==> Distinct(ns)
  {
    if offs == [] then []
    else
      var n := Shift(p, offs[0]);
      var rest := ShiftedInGrid(rows, columns, p, offs[1..]);
      assert Distinct(offs) ==> Distinct(offs[1..]) && n !in rest by {
        if Distinct(offs) {
          forall o | o in offs[1..]
            ensures Shift(p, o) != n
          {
            var k :| 0 <= k < |offs| - 1 && offs[1..][k] == o;
            assert offs[k + 1] == o;
          }
        }
      }
      (if InGrid(rows, columns, n) then [n] else []) + rest
  }

  lemma OffsetsAreTheAdjacentShifts(p: Pos, n: Pos)
    ensures Adjacent(p, n) <==> exists o :: o in Offsets && n == Shift(p, o)
  {
    if Adjacent(p, n) {
      var o := Pos(n.row - p.row, n.column - p.column);
      assert n == Shift(p, o);
      if o.row == 0 {
        assert o == Offsets[0] || o == Offsets[2];
      } else if o.row == 1 {
        assert o == Offsets[1] || o == Offsets[4] || o == Offsets[6];
      } else {
        assert o == Offsets[3] || o == Offsets[5] || o == Offsets[7];
      }
    }
  }

  lemma OffsetsDistinct()
    ensures Distinct(Offsets)
  {
    forall i, j | 0 <= i < j < |Offsets|
      ensures Offsets[i] != Offsets[j]
    {
      assert Offsets[i].row != Offsets[j].row || Offsets[i].column != Offsets[j].column;
    }
  }

  /** The in-bounds neighbours of `p` on a rows x columns grid, in offset
      order, each listed once. */
  function Neighbors(rows: int, columns: int, p: Pos): (ns: seq<Pos>)
    ensures |ns| <= 8
    ensures forall n :: n in ns <==> InGrid(rows, columns, n) && Adjacent(p, n)
    ensures Distinct(ns)
  {
    var ns := ShiftedInGrid(rows, columns, p, Offsets);
    assert forall n :: Adjacent(p, n) <==> exists o :: o in Offsets && n == Shift(p, o) by {
      forall n {
        OffsetsAreTheAdjacentShifts(p, n);
      }
    }
    OffsetsDistinct();
    ns
  }

  /** The cells around `p` satisfying `f`, collected independently of the
      neighbour enumeration: every position in the 3x3 square centred on `p`. */
  ghost function AdjacentWhere(b: Board, p: Pos, f: Cell -> bool): (s: set<Pos>)
    requires Wf(b)
    ensures forall q :: q in s <==> InBounds(b, q) && Adjacent(p, q) && f(At(b, q))
  {
    var s := set i, j | p.row - 1 <= i <= p.row + 1 && p.column - 1 <= j <= p.column + 1
                        && InBounds(b, Pos(i, j)) && Adjacent(p, Pos(i, j)) && f(At(b, Pos(i, j))) :: Pos(i, j);
    assert forall q :: InBounds(b, q) && Adjacent(p, q) && f(At(b, q)) ==> q in s by {
      forall q | InBounds(b, q) && Adjacent(p, q) && f(At(b, q))
        ensures q in s
      {
        assert q == Pos(q.row, q.column);
      }
    }
    s
  }

  /** `getInBoundNeighbors` */
  function NeighborsOf(b: Board, p: Pos): seq<Pos> {
    Neighbors(b.rows, b.columns, p)
  }

  predicate AllInBounds(b: Board, ns: seq<Pos>) {
    forall k :: 0 <= k < |ns| ==> InBounds(b, ns[k])
  }

  lemma NeighborsInBounds(b: Board, p: Pos)
    ensures AllInBounds(b, NeighborsOf(b, p))
  {
    var ns := NeighborsOf(b, p);
    forall k | 0 <= k < |ns|
      ensures InBounds(b, ns[k])
    {
      assert ns[k] in ns;
    }
  }

  predicate IsMineState(s: CellState) {
    s in MineStates
  }

  predicate IsFlaggedState(s: CellState) {
    s in FlaggedStates
  }

  /** Number of positions of `ns` whose display state satisfies `f`. */
  function CountStates(b: Board, ns: seq<Pos>, f: CellState -> bool): (n: nat)
    requires Wf(b) && AllInBounds(b, ns)
    ensures n <= |ns|
    ensures n == 0 <==> forall k :: 0 <= k < |ns| ==> !f(StateAt(b, ns[k]))
  {
    if ns == [] then 0 else Ind(f(StateAt(b, ns[0]))) + CountStates(b, ns[1..], f)
  }

  lemma {:induction false} CountStatesAgree(b: Board, r: Board, ns: seq<Pos>, f: CellState -> bool)
    requires Wf(b) && Wf(r) && AllInBounds(b, ns) && AllInBounds(r, ns)
    requires forall k :: 0 <= k < |ns| ==> f(StateAt(b, ns[k])) == f(StateAt(r, ns[k]))
    ensures CountStates(b, ns, f) == CountStates(r, ns, f)
    decreases |ns|
  {
    if ns != [] {
      CountStatesAgree(b, r, ns[1..], f);
    }
  }

  /** The positions of `ns` whose display state satisfies `f`. */
  ghost function Matching(b: Board, ns: seq<Pos>, f: CellState -> bool): set<Pos>
    requires Wf(b)
  {
    set q | q in ns && InBounds(b, q) && f(StateAt(b, q))
  }

  /** Over positions listed once, the count is the size of the matching set. */
  lemma {:induction false} CountStatesIsCardinality(b: Board, ns: seq<Pos>, f: CellState -> bool)
    requires Wf(b) && AllInBounds(b, ns) && Distinct(ns)
    ensures CountStates(b, ns, f) == |Matching(b, ns, f)|
    decreases |ns|
  {
    if ns != [] {
      var rest := ns[1..];
      assert ns == [ns[0]] + rest;
      assert AllInBounds(b, rest) && Distinct(rest);
      CountStatesIsCardinality(b, rest, f);
      assert ns[0] !in rest;
      var m := Matching(b, rest, f);
      if f(StateAt(b, ns[0])) {
        assert Matching(b, ns, f) == m + {ns[0]};
      } else {
        assert Matching(b, ns, f) == m;
      }
    }
  }

  /** Counting the neighbour list by display state counts the adjacent
      cells of the 3x3 square, when the state test `f` and the cell test `g`
      agree on every cell. */
  lemma NeighborCount(b: Board, p: Pos, f: CellState -> bool, g: Cell -> bool)
    requires Wf(b) && InBounds(b, p)
    requires forall c :: f(Display(c)) == g(c)
    ensures AllInBounds(b, NeighborsOf(b, p))
    ensures CountStates(b, NeighborsOf(b, p), f) == |AdjacentWhere(b, p, g)|
    ensures CountStates(b, NeighborsOf(b, p), f) == 0 <==>
              forall q :: InBounds(b, q) && Adjacent(p, q) ==> !g(At(b, q))
  {
    var ns := NeighborsOf(b, p);
    NeighborsInBounds(b, p);
    CountStatesIsCardinality(b, ns, f);
    var s := AdjacentWhere(b, p, g);
    assert Matching(b, ns, f) == s;
    if s != {} {
      var q :| q in s;
      assert InBounds(b, q) && Adjacent(p, q) && g(At(b, q));
    }
  }

  /** `getCellNumNeighborMines`: 0 outside the grid, otherwise the number of
      adjacent mines, whatever markers they carry. */
  function NeighborMines(b: Board, p: Pos): (n: nat)
    requires Wf(b)
    ensures n <= 8
    ensures !InBounds(b, p) ==> n == 0
    ensures InBounds(b, p) ==> n == |AdjacentWhere(b, p, IsMineCell)|
    ensures InBounds(b, p) ==>
              (n == 0 <==> forall q :: InBounds(b, q) && Adjacent(p, q) ==> !At(b, q).mine)
  {
    if !InBounds(b, p) then 0
    else
      NeighborCount(b, p, IsMineState, IsMineCell);
      CountStates(b, NeighborsOf(b, p), IsMineState)
  }

  /** `getCellNumNeighborFlags`: 0 outside the grid, otherwise the number of
      adjacent cells showing a flag. */
  function NeighborFlags(b: Board, p: Pos): (n: nat)
    requires Wf(b)
    ensures n <= 8
    ensures !InBounds(b, p) ==> n == 0
    ensures InBounds(b, p) ==> n == |AdjacentWhere(b, p, CarriesFlag)|
    ensures InBounds(b, p) ==>
              (n == 0 <==> forall q :: InBounds(b, q) && Adjacent(p, q) ==> StateAt(b, q) !in FlaggedStates)
  {
    if !InBounds(b, p) then 0
    else
      NeighborCount(b, p, IsFlaggedState, CarriesFlag);
      CountStates(b, NeighborsOf(b, p), IsFlaggedState)
  }

  /** Two boards with the same shape and the same mine bits. */
  ghost predicate SameMines(b: Board, r: Board) {
    && Wf(b) && Wf(r) && r.rows == b.rows && r.columns == b.columns
    && forall q :: InBounds(b, q) ==> At(r, q).mine == At(b, q).mine
  }

  /** The neighbour mine count reads only the mine bits: flags and question marks do not matter. */
  lemma NeighborMinesIgnoresMarkers(b: Board, r: Board, p: Pos)
    requires SameMines(b, r)
    ensures NeighborMines(b, p) == NeighborMines(r, p)
  {
    if InBounds(b, p) {
      NeighborsInBounds(b, p);
      CountStatesAgree(b, r, NeighborsOf(b, p), IsMineState);
    }
  }

  /** `isFullyFlaggedCell`: the chord condition. A Clicked cell is fully
      flagged when the cells around it showing a flag are as many as those
      holding a mine. */
  predicate IsFullyFlaggedCell(b: Board, p: Pos): (r: bool)
    requires Wf(b) && InBounds(b, p)
    ensures r <==> StateAt(b, p) == Clicked && |AdjacentWhere(b, p, CarriesFlag)| == |AdjacentWhere(b, p, IsMineCell)|
  {
    StateAt(b, p) == Clicked && NeighborFlags(b, p) == NeighborMines(b, p)
  }

  // ---------------------------------------------------------------------------
  // How operations may change cells

  /** `d` is `c`, or `c` was unclicked and unmarked and `d` is it clicked. */
  predicate Revealed(c: Cell, d: Cell) {
    d == c || (Display(c) in {Unclicked, UnclickedMine} && d == c.(clicked := true))
  }

  /** `d` is `c`, or `c` was an unmarked safe cell and `d` is it clicked. */
  predicate Filled(c: Cell, d: Cell) {
    d == c || (Display(c) == Unclicked && d == c.(clicked := true))
  }

  /** Every change from `b` to `r` reveals an unmarked, unclicked cell. */
  ghost predicate RevealsOnly(b: Board, r: Board) {
    && Wf(b) && Wf(r) && SameFrame(b, r)
    && forall q :: InBounds(b, q) ==> Revealed(At(b, q), At(r, q))
  }

  /** Every change from `b` to `r` reveals an unmarked safe cell: mines,
      flagged and questioned cells are untouched. */
  ghost predicate Grows(b: Board, r: Board) {
    && Wf(b) && Wf(r) && SameFrame(b, r)
    && forall q :: InBounds(b, q) ==> Filled(At(b, q), At(r, q))
  }

  lemma GrowsTrans(a: Board, b: Board, c: Board)
    requires Grows(a, b) && Grows(b, c)
    ensures Grows(a, c)
  {
    forall q | InBounds(a, q)
      ensures Filled(At(a, q), At(c, q))
    {
      assert Filled(At(a, q), At(b, q));
      assert Filled(At(b, q), At(c, q));
    }
  }

  lemma RevealsOnlyTrans(a: Board, b: Board, c: Board)
    requires RevealsOnly(a, b) && RevealsOnly(b, c)
    ensures RevealsOnly(a, c)
  {
    forall q | InBounds(a, q)
      ensures Revealed(At(a, q), At(c, q))
    {
      assert Revealed(At(a, q), At(b, q));
      assert Revealed(At(b, q), At(c, q));
    }
  }

  lemma GrowsRevealsOnly(b: Board, r: Board)
    requires Grows(b, r)
    ensures RevealsOnly(b, r) && SameMines(b, r)
  {
    forall q | InBounds(b, q)
      ensures Revealed(At(b, q), At(r, q))
    {
      assert Filled(At(b, q), At(r, q));
    }
  }

  lemma SameMinesTrans(a: Board, b: Board, c: Board)
    requires SameMines(a, b) && SameMines(b, c)
    ensures SameMines(a, c)
  {
    forall q | InBounds(a, q)
      ensures At(c, q).mine == At(a, q).mine
    {
      assert At(b, q).mine == At(a, q).mine;
    }
  }

  lemma RevealsOnlySameMines(b: Board, r: Board)
    requires RevealsOnly(b, r)
    ensures SameMines(b, r)
  {
    forall q | InBounds(b, q)
      ensures At(r, q).mine == At(b, q).mine
    {
      assert Revealed(At(b, q), At(r, q));
    }
  }

  // ---------------------------------------------------------------------------
  // Explosion, flood-fill, chord

  function ExplodeCell(c: Cell): Cell {
    if Display(c) in MineStates then ClickCell(c) else c
  }

  /** `explode`: every unmarked mine shows ClickedMine; every other cell keeps its state. */
  function Explode(b: Board): (r: Board)
    requires Wf(b)
    ensures RevealsOnly(b, r) && r.mineCount == b.mineCount
    ensures forall q :: InBounds(b, q) ==>
              StateAt(r, q) == (if StateAt(b, q) == UnclickedMine then ClickedMine else StateAt(b, q))
  {
    b.(grid := seq(|b.grid|, i requires 0 <= i < |b.grid| =>
                 seq(|b.grid[i]|, j requires 0 <= j < |b.grid[i]| => ExplodeCell(b.grid[i][j]))))
  }

  predicate IsUnclickedCell(c: Cell) {
    Display(c) == Unclicked
  }

  /** Number of cells showing Unclicked (safe, unclicked, unmarked): the flood-fill measure. */
  function UnclickedCount(b: Board): nat {
    CountGrid(b.grid, IsUnclickedCell)
  }

  /** The first step of `floodfill` on an Unclicked cell: click it, and
      nothing else. */
  function ClickOne(b: Board, p: Pos): (r: Board)
    requires Wf(b) && InBounds(b, p) && StateAt(b, p) == Unclicked
    ensures Grows(b, r) && r.mineCount == b.mineCount
    ensures StateAt(r, p) == Clicked
    ensures forall q :: InBounds(b, q) && q != p ==> At(r, q) == At(b, q)
    ensures UnclickedCount(r) == UnclickedCount(b) - 1
  {
    var c := ClickCell(At(b, p));
    CountGridUpdate(b.grid, p.row, p.column, c, IsUnclickedCell);
    SetCell(b, p, c)
  }

  /** `floodfill`: depth-first reveal from `p`. Only an Unclicked cell is
      clicked, and only a cell with no adjacent mine spreads to its neighbours.
      The number of Unclicked cells strictly drops before every recursive call. */
  function Floodfill(b: Board, p: Pos): (r: Board)
    requires Wf(b) && InBounds(b, p)
    ensures Grows(b, r) && r.mineCount == b.mineCount
    ensures UnclickedCount(r) <= UnclickedCount(b)
    ensures StateAt(b, p) == Unclicked ==> StateAt(r, p) == Clicked
    ensures StateAt(b, p) != Unclicked ==> r == b
    decreases UnclickedCount(b), 0
  {
    if StateAt(b, p) != Unclicked then b
    else
      var b1 := ClickOne(b, p);
      if NeighborMines(b1, p) == 0 then
        NeighborsInBounds(b1, p);
        var r := FillEach(b1, NeighborsOf(b1, p));
        GrowsTrans(b, b1, r);
        assert Filled(At(b1, p), At(r, p));
        r
      else
        b1
  }

  /** The `forEach` over the neighbours in `floodfill`. */
  function FillEach(b: Board, ns: seq<Pos>): (r: Board)
    requires Wf(b) && AllInBounds(b, ns)
    ensures Grows(b, r) && r.mineCount == b.mineCount
    ensures UnclickedCount(r) <= UnclickedCount(b)
    decreases UnclickedCount(b), 1, |ns|
  {
    if ns == [] then b
    else
      var b1 := Floodfill(b, ns[0]);
      var r := FillEach(b1, ns[1..]);
      GrowsTrans(b, b1, r);
      r
  }

  /** Every cell shows something other than UnclickedMine. */
  ghost predicate NoUnclickedMine(b: Board)
    requires Wf(b)
  {
    forall q :: InBounds(b, q) ==> StateAt(b, q) != UnclickedMine
  }

  /** A cell that is clicked or marked cannot be revealed any more. */
  predicate Settled(s: CellState) {
    s !in {Unclicked, UnclickedMine}
  }

  /** Between two boards a reveal changes a cell only from Unclicked to
      Clicked or from UnclickedMine to ClickedMine. */
  lemma RevealsOnlyKeepsState(b: Board, r: Board, q: Pos)
    requires RevealsOnly(b, r) && InBounds(b, q)
    ensures || StateAt(r, q) == StateAt(b, q)
            || (StateAt(b, q) == Unclicked && StateAt(r, q) == Clicked)
            || (StateAt(b, q) == UnclickedMine && StateAt(r, q) == ClickedMine)
  {
    assert Revealed(At(b, q), At(r, q));
  }

  lemma RevealsOnlyKeepsSettled(b: Board, r: Board, q: Pos)
    requires RevealsOnly(b, r) && InBounds(b, q)
    ensures Settled(StateAt(b, q)) ==> StateAt(r, q) == StateAt(b, q)
    ensures Settled(StateAt(r, q))  || StateAt(r, q) == StateAt(b, q)
  {
    RevealsOnlyKeepsState(b, r, q);
  }

  lemma RevealsOnlyKeepsNoUnclickedMine(b: Board, r: Board)
    requires RevealsOnly(b, r) && NoUnclickedMine(b)
    ensures NoUnclickedMine(r)
  {
    forall q | InBounds(r, q)
      ensures StateAt(r, q) != UnclickedMine
    {
      RevealsOnlyKeepsSettled(b, r, q);
    }
  }

  /** The `forEach` in `clickAllNeighbors`: an UnclickedMine neighbour explodes
      the board, every other neighbour is flood-filled. Afterwards no neighbour
      can still be revealed; an exploding neighbour leaves no UnclickedMine
      anywhere, and without one only safe cells were revealed. */
  function ClickEach(b: Board, ns: seq<Pos>): (r: Board)
    requires Wf(b) && AllInBounds(b, ns)
    ensures RevealsOnly(b, r) && r.mineCount == b.mineCount
    ensures forall k :: 0 <= k < |ns| ==> Settled(StateAt(r, ns[k]))
    ensures (exists k :: 0 <= k < |ns| && StateAt(b, ns[k]) == UnclickedMine) ==> NoUnclickedMine(r)
    ensures (forall k :: 0 <= k < |ns| ==> StateAt(b, ns[k]) != UnclickedMine) ==> Grows(b, r)
    decreases |ns|
  {
    if ns == [] then b
    else
      var exploding := StateAt(b, ns[0]) == UnclickedMine;
      var b1 := if exploding then Explode(b) else Floodfill(b, ns[0]);
      ClickStepRevealsOnly(b, ns[0], b1);
      assert AllInBounds(b1, ns[1..]) by {
        forall k | 0 <= k < |ns| - 1
          ensures InBounds(b1, ns[1..][k])
        {
          assert ns[1..][k] == ns[k + 1];
        }
      }
      var r := ClickEach(b1, ns[1..]);
      RevealsOnlyTrans(b, b1, r);
      ClickEachFacts(b, b1, r, ns, exploding);
      r
  }

  lemma ClickStepRevealsOnly(b: Board, p: Pos, b1: Board)
    requires Wf(b) && InBounds(b, p)
    requires b1 == (if StateAt(b, p) == UnclickedMine then Explode(b) else Floodfill(b, p))
    ensures RevealsOnly(b, b1)
    ensures Settled(StateAt(b1, p))
    ensures StateAt(b, p) == UnclickedMine ==> NoUnclickedMine(b1)
    ensures StateAt(b, p) != UnclickedMine ==> Grows(b, b1)
  {
    if StateAt(b, p) != UnclickedMine {
      GrowsRevealsOnly(b, b1);
    }
  }

  lemma ClickEachFacts(b: Board, b1: Board, r: Board, ns: seq<Pos>, exploding: bool)
    requires Wf(b) && |ns| > 0 && AllInBounds(b, ns)
    requires exploding == (StateAt(b, ns[0]) == UnclickedMine)
    requires RevealsOnly(b, b1) && RevealsOnly(b1, r)
    requires Settled(StateAt(b1, ns[0]))
    requires exploding ==> NoUnclickedMine(b1)
    requires !exploding ==> Grows(b, b1)
    requires forall k :: 0 <= k < |ns| - 1 ==> Settled(StateAt(r, ns[1..][k]))
    requires (exists k :: 0 <= k < |ns| - 1 && StateAt(b1, ns[1..][k]) == UnclickedMine) ==> NoUnclickedMine(r)
    requires (forall k :: 0 <= k < |ns| - 1 ==> StateAt(b1, ns[1..][k]) != UnclickedMine) ==> Grows(b1, r)
    ensures forall k :: 0 <= k < |ns| ==> Settled(StateAt(r, ns[k]))
    ensures (exists k :: 0 <= k < |ns| && StateAt(b, ns[k]) == UnclickedMine) ==> NoUnclickedMine(r)
    ensures (forall k :: 0 <= k < |ns| ==> StateAt(b, ns[k]) != UnclickedMine) ==> Grows(b, r)
  {
    ClickEachSettled(b1, r, ns);
    if exploding {
      RevealsOnlyKeepsNoUnclickedMine(b1, r);
    } else if exists k :: 0 <= k < |ns| && StateAt(b, ns[k]) == UnclickedMine {
      var k :| 0 <= k < |ns| && StateAt(b, ns[k]) == UnclickedMine;
      assert k > 0;
      assert Filled(At(b, ns[k]), At(b1, ns[k]));
      assert ns[1..][k - 1] == ns[k];
    } else {
      forall k | 0 <= k < |ns| - 1
        ensures StateAt(b1, ns[1..][k]) != UnclickedMine
      {
        assert ns[1..][k] == ns[k + 1];
        assert Filled(At(b, ns[k + 1]), At(b1, ns[k + 1]));
      }
      GrowsTrans(b, b1, r);
    }
  }

  lemma ClickEachSettled(b1: Board, r: Board, ns: seq<Pos>)
    requires RevealsOnly(b1, r) && |ns| > 0 && AllInBounds(b1, ns)
    requires Settled(StateAt(b1, ns[0]))
    requires forall k :: 0 <= k < |ns| - 1 ==> Settled(StateAt(r, ns[1..][k]))
    ensures forall k :: 0 <= k < |ns| ==> Settled(StateAt(r, ns[k]))
  {
    RevealsOnlyKeepsSettled(b1, r, ns[0]);
    forall k | 1 <= k < |ns|
      ensures Settled(StateAt(r, ns[k]))
    {
      assert ns[k] == ns[1..][k - 1];
    }
  }

  /** `clickAllNeighbors` */
  function ClickAllNeighbors(b: Board, p: Pos): (r: Board)
    requires Wf(b)
    ensures RevealsOnly(b, r) && r.mineCount == b.mineCount
    ensures forall q :: InBounds(b, q) && Adjacent(p, q) ==> Settled(StateAt(r, q))
    ensures (exists q :: InBounds(b, q) && Adjacent(p, q) && StateAt(b, q) == UnclickedMine) ==> NoUnclickedMine(r)
    ensures (forall q :: InBounds(b, q) && Adjacent(p, q) ==> StateAt(b, q) != UnclickedMine) ==> Grows(b, r)
  {
    var ns := NeighborsOf(b, p);
    NeighborsInBounds(b, p);
    var r := ClickEach(b, ns);
    assert forall q :: InBounds(b, q) && Adjacent(p, q) ==> q in ns;
    assert forall k :: 0 <= k < |ns| ==> InBounds(b, ns[k]) && Adjacent(p, ns[k]) by {
      forall k | 0 <= k < |ns| ensures InBounds(b, ns[k]) && Adjacent(p, ns[k]) {
        assert ns[k] in ns;
      }
    }
    r
  }

  // ---------------------------------------------------------------------------
  // Game state and mine counter

  predicate ShowsClickedMine(c: Cell) {
    Display(c) == ClickedMine
  }

  predicate ShowsFlagged(c: Cell) {
    Display(c) == Flagged
  }

  predicate ShowsQuestioned(c: Cell) {
    Display(c) == Questioned
  }

  /** A cell the mine counter treats as flagged (Flagged or FlaggedMine). */
  predicate CarriesFlag(c: Cell) {
    Display(c) in FlaggedStates
  }

  predicate IsMineCell(c: Cell) {
    Display(c) in MineStates
  }

  /** Some mine has been clicked. */
  ghost predicate HasClickedMine(b: Board)
    requires Wf(b)
  {
    exists q :: InBounds(b, q) && StateAt(b, q) == ClickedMine
  }

  /** No safe cell is left unclicked, flagged or questioned. */
  ghost predicate AllSafeRevealed(b: Board)
    requires Wf(b)
  {
    forall q :: InBounds(b, q) ==> StateAt(b, q) !in UnclickedNonMineStates
  }

  lemma CountPositiveIffShows(b: Board, p: Cell -> bool)
    requires Wf(b)
    ensures CountGrid(b.grid, p) > 0 <==> exists q :: InBounds(b, q) && p(At(b, q))
  {
    CountGridPositive(b.grid, p);
    if CountGrid(b.grid, p) > 0 {
      var i, j :| 0 <= i < |b.grid| && 0 <= j < |b.grid[i]| && p(b.grid[i][j]);
      assert InBounds(b, Pos(i, j)) && p(At(b, Pos(i, j)));
    }
    if exists q :: InBounds(b, q) && p(At(b, q)) {
      var q :| InBounds(b, q) && p(At(b, q));
      assert p(b.grid[q.row][q.column]);
    }
  }

  /** `calculateGameState`, which tallies display states: Lost when a mine
      was clicked, otherwise Won when no safe cell remains unclicked (marked or
      not), otherwise Active. The board never reports Idle. */
  function CalculateGameState(b: Board): (s: GameState)
    requires Wf(b)
    ensures s != Idle
    ensures s == Lost <==> HasClickedMine(b)
    ensures s == Won <==> !HasClickedMine(b) && AllSafeRevealed(b)
  {
    CountPositiveIffShows(b, ShowsClickedMine);
    CountPositiveIffShows(b, IsUnclickedCell);
    CountPositiveIffShows(b, ShowsFlagged);
    CountPositiveIffShows(b, ShowsQuestioned);
    if CountGrid(b.grid, ShowsClickedMine) > 0 then Lost
    else if CountGrid(b.grid, IsUnclickedCell) + CountGrid(b.grid, ShowsFlagged)
            + CountGrid(b.grid, ShowsQuestioned) == 0 then Won
    else Active
  }

  /** Number of cells the mine counter treats as flagged. */
  function FlagCount(b: Board): nat {
    CountGrid(b.grid, CarriesFlag)
  }

  /** Number of cells holding a mine. */
  function MineCellCount(b: Board): nat {
    CountGrid(b.grid, IsMineCell)
  }

  /** The number of mine cells reads only the mine bits, so no move changes it. */
  lemma SameMinesSameMineCellCount(b: Board, r: Board)
    requires SameMines(b, r)
    ensures MineCellCount(r) == MineCellCount(b)
  {
    forall i, j | 0 <= i < |b.grid| && 0 <= j < |b.grid[i]|
      ensures IsMineCell(b.grid[i][j]) == IsMineCell(r.grid[i][j])
    {
      assert InBounds(b, Pos(i, j));
    }
    CountGridPointwise(b.grid, r.grid, IsMineCell, IsMineCell);
  }

  /** `calculateMineCount` as the engine writes it: start from the total and
      subtract one per flagged cell, scanning row by row. The result may be
      negative when more cells are flagged than there are mines. */
  method CalculateMineCount(b: Board) returns (count: int)
    requires Wf(b)
    ensures count == b.mines - FlagCount(b)
    ensures count <= b.mines
  {
    count := b.mines;
    var row := 0;
    while row < b.rows
      invariant 0 <= row <= b.rows
      invariant count == b.mines - CountGrid(b.grid[..row], CarriesFlag)
    {
      var column := 0;
      while column < b.columns
        invariant 0 <= column <= b.columns
        invariant count == b.mines - CountGrid(b.grid[..row], CarriesFlag) - CountRow(b.grid[row][..column], CarriesFlag)
      {
        assert b.grid[row][..column + 1][..column] == b.grid[row][..column];
        if CarriesFlag(b.grid[row][column]) {
          count := count - 1;
        }
        column := column + 1;
      }
      assert b.grid[..row + 1][..row] == b.grid[..row];
      assert b.grid[row][..column] == b.grid[row];
      row := row + 1;
    }
    assert b.grid[..row] == b.grid;
  }

  /** The counter value: total mines minus flagged cells. */
  function RemainingMines(b: Board): int {
    b.mines - FlagCount(b)
  }

  // ---------------------------------------------------------------------------
  // Win clean-up

  /** The two checks of `cleanUpGameIfNecessary` on one cell: a QuestionedMine
      is right-clicked (back to UnclickedMine), and then an UnclickedMine is
      right-clicked (to FlaggedMine). */
  function CleanUpCell(c: Cell): (r: Cell)
    ensures Display(c) in {QuestionedMine, UnclickedMine} ==> Display(r) == FlaggedMine
    ensures Display(c) !in {QuestionedMine, UnclickedMine} ==> r == c
    ensures r.mine == c.mine
    ensures Consistent(c) ==> Consistent(r)
  {
    var c1 := if Display(c) == QuestionedMine then RightClickCell(c) else c;
    if Display(c1) == UnclickedMine then RightClickCell(c1) else c1
  }

  /** The net effect of `cleanUpGameIfNecessary` once the game is Won. The
      engine re-enters the clean-up through `rightClick` for every cell it
      changes; the final grid has every Questioned or Unclicked mine flagged
      and the counter recomputed from it. */
  function FlagRemainingMines(b: Board): (r: Board)
    requires Wf(b)
    ensures Wf(r) && SameFrame(b, r) && SameMines(b, r)
    ensures forall q :: InBounds(b, q) ==>
              StateAt(r, q) == (if StateAt(b, q) in {QuestionedMine, UnclickedMine} then FlaggedMine else StateAt(b, q))
    ensures forall q :: InBounds(b, q) ==> At(r, q) == CleanUpCell(At(b, q))
    ensures r.mineCount == RemainingMines(r)
  {
    var g := seq(|b.grid|, i requires 0 <= i < |b.grid| =>
               seq(|b.grid[i]|, j requires 0 <= j < |b.grid[i]| => CleanUpCell(b.grid[i][j])));
    var r0 := b.(grid := g);
    r0.(mineCount := RemainingMines(r0))
  }

  /** `cleanUpGameIfNecessary`: the clean-up runs only on a win. */
  function CleanUpGameIfNecessary(b: Board, s: GameState): (r: Board)
    requires Wf(b)
    ensures Wf(r) && SameFrame(b, r) && SameMines(b, r)
    ensures s != Won ==> r == b
    ensures s == Won ==> forall q :: InBounds(b, q) && !At(b, q).mine ==> At(r, q) == At(b, q)
    ensures s == Won ==> forall q :: InBounds(b, q) && At(b, q).mine && StateAt(b, q) != ClickedMine ==>
              StateAt(r, q) == FlaggedMine
  {
    if s == Won then FlagRemainingMines(b) else b
  }

  /** Flagging the remaining mines changes neither Lost nor Won. */
  lemma FlagRemainingMinesKeepsGameState(b: Board)
    requires Wf(b)
    ensures CalculateGameState(FlagRemainingMines(b)) == CalculateGameState(b)
  {
    var r := FlagRemainingMines(b);
    if HasClickedMine(b) {
      var q :| InBounds(b, q) && StateAt(b, q) == ClickedMine;
      assert StateAt(r, q) == ClickedMine;
    }
    if HasClickedMine(r) {
      var q :| InBounds(r, q) && StateAt(r, q) == ClickedMine;
      assert StateAt(b, q) == ClickedMine;
    }
  }

  /** After a win clean-up every mine is flagged and every safe cell clicked,
      so the flagged cells are exactly the mine cells. */
  lemma WonBoardFlagsEveryMine(b: Board)
    requires Wf(b)
    ensures CalculateGameState(b) == Won ==>
              forall q :: InBounds(b, q) && At(b, q).mine ==> StateAt(FlagRemainingMines(b), q) == FlaggedMine
    ensures CalculateGameState(b) == Won ==> FlagCount(FlagRemainingMines(b)) == MineCellCount(b)
  {
    if CalculateGameState(b) == Won {
      var r := FlagRemainingMines(b);
      forall q | InBounds(b, q) && At(b, q).mine
        ensures StateAt(r, q) == FlaggedMine
      {
        assert StateAt(b, q) != ClickedMine;
      }
      forall i, j | 0 <= i < |r.grid| && 0 <= j < |r.grid[i]|
        ensures CarriesFlag(r.grid[i][j]) == IsMineCell(b.grid[i][j])
      {
        var q := Pos(i, j);
        assert InBounds(b, q);
        assert StateAt(b, q) !in UnclickedNonMineStates;
      }
      CountGridPointwise(r.grid, b.grid, CarriesFlag, IsMineCell);
    }
  }


  /** What every click and right-click does after its own change: recompute
      the counter, derive the game state, and clean up on a win. */
  function Settle(b: Board): (o: Outcome)
    requires Wf(b)
    ensures Wf(o.board) && SameFrame(b, o.board) && SameMines(b, o.board)
    ensures o.state != Idle
    ensures o.state == CalculateGameState(o.board) == CalculateGameState(b)
    ensures o.board.mineCount == RemainingMines(o.board)
    ensures o.state != Won ==> o.board.grid == b.grid
    ensures forall q :: InBounds(b, q) && !At(b, q).mine ==> At(o.board, q) == At(b, q)
    ensures o.state == Won ==>
              forall q :: InBounds(b, q) && At(b, q).mine ==> StateAt(o.board, q) == FlaggedMine
    ensures o.state == Won && MineCellCount(b) == b.mines ==> o.board.mineCount == 0
  {
    var b2 := b.(mineCount := RemainingMines(b));
    var s := CalculateGameState(b2);
    assert s == CalculateGameState(b);
    FlagRemainingMinesKeepsGameState(b2);
    WonBoardFlagsEveryMine(b2);
    Outcome(CleanUpGameIfNecessary(b2, s), s)
  }

  // ---------------------------------------------------------------------------
  // Click and right-click

  /** `click`: flood-fill an Unclicked cell, explode on an UnclickedMine,
      chord on a satisfied Clicked cell, and otherwise change nothing; then
      recompute the counter and the state. Until the game is won, a click only
      reveals unmarked cells. */
  function Click(b: Board, p: Pos): (r: Result<Outcome>)
    requires Wf(b)
    ensures r.Err? <==> !InBounds(b, p)
    ensures r.Err? ==> r.error == CellOutOfBounds
    ensures r.Ok? ==> Wf(r.value.board) && SameFrame(b, r.value.board) && SameMines(b, r.value.board)
    ensures r.Ok? ==> r.value.state != Idle && r.value.state == CalculateGameState(r.value.board)
    ensures r.Ok? ==> r.value.board.mineCount == RemainingMines(r.value.board)
    ensures r.Ok? && r.value.state != Won ==> RevealsOnly(b, r.value.board)
    ensures r.Ok? && r.value.state == Won ==>
              forall q :: InBounds(b, q) && At(b, q).mine ==> StateAt(r.value.board, q) == FlaggedMine
    ensures r.Ok? && r.value.state == Won && MineCellCount(b) == b.mines ==> r.value.board.mineCount == 0
  {
    if !InBounds(b, p) then Err(CellOutOfBounds)
    else
      var b1 := ClickStep(b, p);
      RevealsOnlySameMines(b, b1);
      SameMinesSameMineCellCount(b, b1);
      var o := Settle(b1);
      SettleKeepsReveals(b, b1, o);
      Ok(o)
  }

  /** Clicking an unmarked mine loses the game: every unmarked mine on the
      board is shown clicked, and every other cell keeps its display state. */
  lemma ClickMineLoses(b: Board, p: Pos)
    requires Wf(b) && InBounds(b, p) && StateAt(b, p) == UnclickedMine
    ensures Click(b, p).Ok? && Click(b, p).value.state == Lost
    ensures forall q :: InBounds(b, q) ==>
              StateAt(Click(b, p).value.board, q) ==
                (if StateAt(b, q) == UnclickedMine then ClickedMine else StateAt(b, q))
  {
    ClickStepFacts(b, p);
    assert ClickStep(b, p) == Explode(b);
    SettleKeepsReveals(b, Explode(b), Settle(Explode(b)));
  }

  /** Clicking an Unclicked cell clicks it (the flood-fill starts there), and
      a flood-fill never loses the game by itself. */
  lemma ClickUnclickedReveals(b: Board, p: Pos)
    requires Wf(b) && InBounds(b, p) && StateAt(b, p) == Unclicked
    ensures Click(b, p).Ok? && StateAt(Click(b, p).value.board, p) == Clicked
    ensures Click(b, p).value.state == Lost <==> HasClickedMine(b)
  {
    ClickStepFacts(b, p);
    var b1 := ClickStep(b, p);
    GrowsKeepsClickedMines(b, b1);
  }

  lemma GrowsKeepsClickedMines(b: Board, r: Board)
    requires Grows(b, r)
    ensures HasClickedMine(r) <==> HasClickedMine(b)
  {
    if HasClickedMine(b) {
      var q :| InBounds(b, q) && StateAt(b, q) == ClickedMine;
      assert Filled(At(b, q), At(r, q));
      assert InBounds(r, q) && StateAt(r, q) == ClickedMine;
    }
    if HasClickedMine(r) {
      var q :| InBounds(r, q) && StateAt(r, q) == ClickedMine;
      assert InBounds(b, q);
      assert Filled(At(b, q), At(r, q));
      assert StateAt(b, q) == ClickedMine;
    }
  }

  /** A click on a marked cell, a clicked mine, or a Clicked cell whose chord
      condition fails changes no cell (unless the board already counts as won,
      when the clean-up flags the remaining mines). */
  lemma ClickNoChange(b: Board, p: Pos)
    requires Wf(b) && InBounds(b, p) && Settled(StateAt(b, p)) && !IsFullyFlaggedCell(b, p)
    requires CalculateGameState(b) != Won
    ensures Click(b, p).Ok? && Click(b, p).value.board.grid == b.grid
  {
    ClickStepFacts(b, p);
  }

  lemma SettleKeepsReveals(b: Board, b1: Board, o: Outcome)
    requires RevealsOnly(b, b1) && o == Settle(b1)
    ensures o.state != Won ==> RevealsOnly(b, o.board)
    ensures o.state != Won ==> forall q :: InBounds(b, q) ==> StateAt(o.board, q) == StateAt(b1, q)
  {
  }

  /** The mutation part of `click`, before the counter and state are recomputed. */
  function ClickStep(b: Board, p: Pos): (r: Board)
    requires Wf(b) && InBounds(b, p)
    ensures RevealsOnly(b, r)
  {
    var s := StateAt(b, p);
    if s == Unclicked then
      var r := Floodfill(b, p);
      GrowsRevealsOnly(b, r);
      r
    else if s == UnclickedMine then Explode(b)
    else if IsFullyFlaggedCell(b, p) then ClickAllNeighbors(b, p)
    else b
  }

  lemma ClickStepFacts(b: Board, p: Pos)
    requires Wf(b) && InBounds(b, p)
    ensures StateAt(b, p) == UnclickedMine ==> HasClickedMine(ClickStep(b, p))
    ensures StateAt(b, p) == Unclicked ==> StateAt(ClickStep(b, p), p) == Clicked
    ensures StateAt(b, p) == Unclicked ==> Grows(b, ClickStep(b, p))
    ensures Settled(StateAt(b, p)) && !IsFullyFlaggedCell(b, p) ==> ClickStep(b, p) == b
  {
    var r := ClickStep(b, p);
    if StateAt(b, p) == UnclickedMine {
      assert StateAt(r, p) == ClickedMine;
    }
  }

  /** `rightClick`: cycle the marker of a cell that is not clicked, chord on a
      satisfied Clicked cell, and otherwise change nothing. */
  function RightClick(b: Board, p: Pos): (r: Result<Outcome>)
    requires Wf(b)
    ensures r.Err? <==> !InBounds(b, p)
    ensures r.Err? ==> r.error == CellOutOfBounds
    ensures r.Ok? ==> Wf(r.value.board) && SameFrame(b, r.value.board) && SameMines(b, r.value.board)
    ensures r.Ok? ==> r.value.state != Idle && r.value.state == CalculateGameState(r.value.board)
    ensures r.Ok? ==> r.value.board.mineCount == RemainingMines(r.value.board)
    ensures r.Ok? && StateAt(b, p) in UnclickedStates && r.value.state != Won ==>
              r.value.board.grid == b.grid[p.row := b.grid[p.row][p.column := RightClickCell(At(b, p))]]
    ensures r.Ok? && StateAt(b, p) !in UnclickedStates && r.value.state != Won ==> RevealsOnly(b, r.value.board)
    ensures r.Ok? && StateAt(b, p) !in UnclickedStates && !IsFullyFlaggedCell(b, p) && r.value.state != Won ==>
              r.value.board.grid == b.grid
    ensures r.Ok? && r.value.state == Won ==>
              forall q :: InBounds(b, q) && At(b, q).mine ==> StateAt(r.value.board, q) == FlaggedMine
    ensures r.Ok? && r.value.state == Won && MineCellCount(b) == b.mines ==> r.value.board.mineCount == 0
  {
    if !InBounds(b, p) then Err(CellOutOfBounds)
    else
      var c := At(b, p);
      if Display(c) in UnclickedStates then
        var b1 := SetCell(b, p, RightClickCell(c));
        assert SameMines(b, b1);
        SameMinesSameMineCellCount(b, b1);
        var o := Settle(b1);
        SameMinesTrans(b, b1, o.board);
        Ok(o)
      else
        var b1 := if IsFullyFlaggedCell(b, p) then ClickAllNeighbors(b, p) else b;
        assert RevealsOnly(b, b1);
        RevealsOnlySameMines(b, b1);
        SameMinesSameMineCellCount(b, b1);
        var o := Settle(b1);
        SettleKeepsReveals(b, b1, o);
        SameMinesTrans(b, b1, o.board);
        Ok(o)
  }

  /** On a consistent cell that is not clicked, a right-click advances the
      marker cycle and touches no other cell. */
  lemma RightClickCyclesMarker(b: Board, p: Pos)
    requires Wf(b) && InBounds(b, p) && StateAt(b, p) in UnclickedStates && Consistent(At(b, p))
    requires RightClick(b, p).Ok? && RightClick(b, p).value.state != Won
    ensures StateAt(RightClick(b, p).value.board, p) == NextMarker(StateAt(b, p))
    ensures forall q :: InBounds(b, q) && q != p ==> At(RightClick(b, p).value.board, q) == At(b, q)
  {
    RightClickFollowsCycle(At(b, p));
    var b1 := SetCell(b, p, RightClickCell(At(b, p)));
    assert RightClick(b, p).value.board.grid == b1.grid;
  }

  /** Flagging an unmarked cell lowers the counter by one, whether or not
      the cell holds a mine; nothing keeps the counter from going negative. */
  lemma FlagLowersMineCount(b: Board, p: Pos)
    requires Wf(b) && InBounds(b, p) && StateAt(b, p) in {Unclicked, UnclickedMine}
    requires b.mineCount == RemainingMines(b)
    requires RightClick(b, p).Ok? && RightClick(b, p).value.state != Won
    ensures RightClick(b, p).value.board.mineCount == b.mineCount - 1
  {
    var c := RightClickCell(At(b, p));
    var r := RightClick(b, p).value.board;
    CountGridUpdate(b.grid, p.row, p.column, c, CarriesFlag);
    assert r.grid == b.grid[p.row := b.grid[p.row][p.column := c]];
  }

  /** The chord from a click: afterwards no neighbour can still be revealed,
      and an unflagged mine among the neighbours loses the game. */
  lemma ClickChord(b: Board, p: Pos)
    requires Wf(b) && InBounds(b, p) && IsFullyFlaggedCell(b, p)
    ensures Click(b, p).Ok?
    ensures forall q :: InBounds(b, q) && Adjacent(p, q) ==> Settled(StateAt(Click(b, p).value.board, q))
    ensures (exists q :: InBounds(b, q) && Adjacent(p, q) && StateAt(b, q) == UnclickedMine) ==>
              Click(b, p).value.state == Lost
  {
    assert ClickStep(b, p) == ClickAllNeighbors(b, p);
    ChordSettles(b, p);
  }

  /** The chord from a right-click behaves the same way. */
  lemma RightClickChord(b: Board, p: Pos)
    requires Wf(b) && InBounds(b, p) && IsFullyFlaggedCell(b, p)
    ensures RightClick(b, p).Ok?
    ensures forall q :: InBounds(b, q) && Adjacent(p, q) ==> Settled(StateAt(RightClick(b, p).value.board, q))
    ensures (exists q :: InBounds(b, q) && Adjacent(p, q) && StateAt(b, q) == UnclickedMine) ==>
              RightClick(b, p).value.state == Lost
  {
    assert RightClick(b, p).value == Settle(ClickAllNeighbors(b, p));
    ChordSettles(b, p);
  }

  /** The chord followed by the shared tail of click and right-click. */
  lemma ChordSettles(b: Board, p: Pos)
    requires Wf(b) && InBounds(b, p)
    ensures forall q :: InBounds(b, q) && Adjacent(p, q) ==>
              Settled(StateAt(Settle(ClickAllNeighbors(b, p)).board, q))
    ensures (exists q :: InBounds(b, q) && Adjacent(p, q) && StateAt(b, q) == UnclickedMine) ==>
              Settle(ClickAllNeighbors(b, p)).state == Lost
  {
    var b1 := ClickAllNeighbors(b, p);
    var o := Settle(b1);
    forall q | InBounds(b, q) && Adjacent(p, q)
      ensures Settled(StateAt(o.board, q))
    {
      SettleKeepsSettled(b1, o, q);
    }
    if exists q :: InBounds(b, q) && Adjacent(p, q) && StateAt(b, q) == UnclickedMine {
      var q :| InBounds(b, q) && Adjacent(p, q) && StateAt(b, q) == UnclickedMine;
      RevealedMineIsClicked(b, b1, q);
    }
  }

  lemma SettleKeepsSettled(b1: Board, o: Outcome, q: Pos)
    requires Wf(b1) && InBounds(b1, q) && o == Settle(b1) && Settled(StateAt(b1, q))
    ensures Settled(StateAt(o.board, q))
  {
  }

  lemma RevealedMineIsClicked(b: Board, b1: Board, q: Pos)
    requires RevealsOnly(b, b1) && InBounds(b, q) && StateAt(b, q) == UnclickedMine
    requires Settled(StateAt(b1, q))
    ensures HasClickedMine(b1)
  {
    assert Revealed(At(b, q), At(b1, q));
    assert StateAt(b1, q) == ClickedMine;
  }

  // ---------------------------------------------------------------------------
  // Consistency of every cell

  /** Every cell is in a combination the cell operations can reach. */
  ghost predicate AllConsistent(b: Board)
    requires Wf(b)
  {
    forall q :: InBounds(b, q) ==> Consistent(At(b, q))
  }

  lemma RevealsOnlyKeepsConsistent(b: Board, r: Board)
    requires RevealsOnly(b, r) && AllConsistent(b)
    ensures AllConsistent(r)
  {
    forall q | InBounds(r, q)
      ensures Consistent(At(r, q))
    {
      assert Revealed(At(b, q), At(r, q));
    }
  }

  lemma SettleKeepsConsistent(b: Board)
    requires Wf(b) && AllConsistent(b)
    ensures AllConsistent(Settle(b).board)
  {
  }

  /** No click makes a cell both flagged and questioned, or clicked and marked. */
  lemma ClickKeepsConsistent(b: Board, p: Pos)
    requires Wf(b) && AllConsistent(b) && InBounds(b, p)
    ensures AllConsistent(Click(b, p).value.board)
  {
    var b1 := ClickStep(b, p);
    RevealsOnlyKeepsConsistent(b, b1);
    SettleKeepsConsistent(b1);
  }

  /** No right-click does either. */
  lemma RightClickKeepsConsistent(b: Board, p: Pos)
    requires Wf(b) && AllConsistent(b) && InBounds(b, p)
    ensures AllConsistent(RightClick(b, p).value.board)
  {
    var c := At(b, p);
    if Display(c) in UnclickedStates {
      var b1 := SetCell(b, p, RightClickCell(c));
      SettleKeepsConsistent(b1);
    } else if IsFullyFlaggedCell(b, p) {
      var b1 := ClickAllNeighbors(b, p);
      RevealsOnlyKeepsConsistent(b, b1);
      SettleKeepsConsistent(b1);
    } else {
      SettleKeepsConsistent(b);
    }
  }

  // ---------------------------------------------------------------------------
  // Construction

  /** `validateInputs`: the mine bound is checked first, then rows, then
      columns. `rows*columns/2` is a real division in the engine, so
      `mines > rows*columns/2` is `2*mines > rows*columns`. */
  function ValidateInputs(rows: int, columns: int, mines: int): (r: Result<()>)
    ensures r.Ok? <==> 0 <= 2 * mines <= rows * columns && 1 <= rows <= 100 && 1 <= columns <= 100
    ensures r == Err(MinesOutOfRange) <==> mines < 0 || 2 * mines > rows * columns
    ensures r == Err(RowsOutOfRange) <==> 0 <= 2 * mines <= rows * columns && !(1 <= rows <= 100)
    ensures r == Err(ColumnsOutOfRange) <==>
              0 <= 2 * mines <= rows * columns && 1 <= rows <= 100 && !(1 <= columns <= 100)
  {
    if mines < 0 || 2 * mines > rows * columns then Err(MinesOutOfRange)
    else if rows <= 0 || rows > 100 then Err(RowsOutOfRange)
    else if columns <= 0 || columns > 100 then Err(ColumnsOutOfRange)
    else Ok(())
  }

  /** A mine placement for a valid board: `mines` distinct in-bounds positions.
      It stands in for the engine's random draws. */
  predicate PlacementFits(rows: int, columns: int, mines: int, placement: set<Pos>) {
    |placement| == mines && forall q :: q in placement ==> InGrid(rows, columns, q)
  }

  /** The `Board` constructor with the mines at `placement`. */
  function NewBoard(rows: int, columns: int, mines: int, placement: set<Pos>): (r: Result<Board>)
    requires ValidateInputs(rows, columns, mines).Ok? ==> PlacementFits(rows, columns, mines, placement)
    ensures r.Err? <==> ValidateInputs(rows, columns, mines).Err?
    ensures r.Err? ==> r.error == ValidateInputs(rows, columns, mines).error
    ensures r.Ok? ==> Wf(r.value) && r.value.rows == rows && r.value.columns == columns
    ensures r.Ok? ==> r.value.mines == mines && r.value.mineCount == mines
    ensures r.Ok? ==> forall q :: InBounds(r.value, q) ==>
              (At(r.value, q).mine <==> q in placement) && StateAt(r.value, q) in {Unclicked, UnclickedMine}
    ensures r.Ok? ==> MineCellCount(r.value) == mines
  {
    match ValidateInputs(rows, columns, mines)
    case Err(e) => Err(e)
    case Ok(_) =>
      var g := seq(rows, i requires 0 <= i < rows =>
                 seq(columns, j requires 0 <= j < columns => SetMine(NewCell(), Pos(i, j) in placement)));
      var b := Board(rows, columns, mines, mines, g);
      NewBoardMines(b, placement);
      Ok(b)
  }

  lemma NewBoardMines(b: Board, placement: set<Pos>)
    requires Wf(b) && PlacementFits(b.rows, b.columns, b.mines, placement)
    requires forall i, j :: 0 <= i < b.rows && 0 <= j < b.columns ==> (b.grid[i][j].mine <==> Pos(i, j) in placement)
    ensures MineCellCount(b) == b.mines
  {
    assert Where(b.grid, IsMineCell) == placement by {
      forall q | q in placement
        ensures q in Where(b.grid, IsMineCell)
      {
        assert IsMineCell(b.grid[q.row][q.column]);
      }
    }
    CountGridIsCardinality(b.grid, IsMineCell);
  }
}

=== FILE: cell.dfy ===
/**
  One square of the Minesweeper grid (src/engine/Cell.js): four booleans and
  the nine-way display state derived from them.
 */
module Cells {

  /** The display state of a cell; `Invalid` exists in the enum but is never produced. */
  datatype CellState =
    | Unclicked | Clicked | Flagged | Questioned
    | UnclickedMine | ClickedMine | FlaggedMine | QuestionedMine
    | Invalid

  // The category tables the board uses as membership tests.
  const NonMineStates: set<CellState> := {Unclicked, Clicked, Flagged, Questioned}
  const MineStates: set<CellState> := {UnclickedMine, ClickedMine, FlaggedMine, QuestionedMine}
  const UnclickedStates: set<CellState> :=
    {Unclicked, UnclickedMine, Flagged, FlaggedMine, Questioned, QuestionedMine}
  const FlaggedStates: set<CellState> := {Flagged, FlaggedMine}
  const UnclickedNonMineStates: set<CellState> := {Unclicked, Flagged, Questioned}
  const ClickedStates: set<CellState> := {Clicked, ClickedMine}

  datatype Cell = Cell(clicked: bool, mine: bool, flagged: bool, questioned: bool)

  /** A fresh cell: unclicked, no mine, no marker. */
  function NewCell(): (c: Cell)
    ensures Display(c) == Unclicked
  {
    Cell(false, false, false, false)
  }

  /** The combinations the cell operations can reach: the two markers are
      exclusive and a clicked cell carries neither. */
  predicate Consistent(c: Cell) {
    !(c.flagged && c.questioned) && (c.clicked ==> !c.flagged && !c.questioned)
  }

  /** The `cellState` getter: clicked dominates, then flag beats question,
      and the mine bit selects the *Mine variant. The table memberships below
      pin the result down completely. */
  function Display(c: Cell): (s: CellState)
    ensures s != Invalid
    ensures s in MineStates <==> c.mine
    ensures s in NonMineStates <==> !c.mine
    ensures s in ClickedStates <==> c.clicked
    ensures s in UnclickedStates <==> !c.clicked
    ensures s in FlaggedStates <==> !c.clicked && c.flagged
    ensures s in UnclickedNonMineStates <==> !c.clicked && !c.mine
    ensures (s == Questioned || s == QuestionedMine) <==> !c.clicked && !c.flagged && c.questioned
  {
    if c.clicked then
      if c.mine then ClickedMine else Clicked
    else if c.mine then
      if c.flagged then FlaggedMine
      else if c.questioned then QuestionedMine
      else UnclickedMine
    else
      if c.flagged then Flagged
      else if c.questioned then Questioned
      else Unclicked
  }

  /** `click`: a marked cell ignores it; otherwise the cell becomes clicked. */
  function ClickCell(c: Cell): (r: Cell)
    ensures r.mine == c.mine
    ensures Display(c) in {Flagged, FlaggedMine, Questioned, QuestionedMine} ==> r == c
    ensures Display(c) in {Unclicked, UnclickedMine, Clicked, ClickedMine} ==>
              Display(r) in ClickedStates
    ensures Consistent(c) ==> Consistent(r)
  {
    if c.flagged || c.questioned then c
    else c.(clicked := true)
  }

  /** `rightClick`: a clicked cell ignores it; otherwise the marker cycles
      none -> flag -> question -> none. */
  function RightClickCell(c: Cell): (r: Cell)
    ensures r.mine == c.mine && r.clicked == c.clicked
    ensures c.clicked ==> r == c
    ensures Consistent(c) ==> Consistent(r)
  {
    if c.clicked then c
    else if c.flagged then c.(flagged := false, questioned := true)
    else if c.questioned then c.(questioned := false)
    else c.(flagged := true)
  }

  /** The `isMine` setter, the only way the mine bit changes. */
  function SetMine(c: Cell, isMine: bool): (r: Cell)
    ensures r.mine == isMine
    ensures r.clicked == c.clicked && r.flagged == c.flagged && r.questioned == c.questioned
    ensures Display(r) in UnclickedStates <==> Display(c) in UnclickedStates
    ensures Display(r) in FlaggedStates <==> Display(c) in FlaggedStates
  {
    c.(mine := isMine)
  }

  /** The marker cycle read off the display states, independent of the booleans. */
  function NextMarker(s: CellState): CellState {
    match s
    case Unclicked => Flagged
    case Flagged => Questioned
    case Questioned => Unclicked
    case UnclickedMine => FlaggedMine
    case FlaggedMine => QuestionedMine
    case QuestionedMine => UnclickedMine
    case _ => s
  }

  /** On a consistent cell a right click advances the display state one step
      of the marker cycle (and leaves clicked cells alone). */
  lemma RightClickFollowsCycle(c: Cell)
    requires Consistent(c)
    ensures Display(RightClickCell(c)) == NextMarker(Display(c))
  {
  }

  /** Three right clicks restore a consistent cell exactly, mine or not. */
  lemma RightClickCycleLength(c: Cell)
    requires Consistent(c)
    ensures RightClickCell(RightClickCell(RightClickCell(c))) == c
    ensures RightClickCell(c) != c <==> !c.clicked
  {
  }

  /** Clicking twice is clicking once. */
  lemma ClickIdempotent(c: Cell)
    ensures ClickCell(ClickCell(c)) == ClickCell(c)
  {
  }

  /** On consistent cells the display state determines every field, so no
      information is lost by looking only at the nine-way state. */
  lemma DisplayDeterminesCell(a: Cell, b: Cell)
    requires Consistent(a) && Consistent(b)
    requires Display(a) == Display(b)
    ensures a == b
  {
  }
}

=== FILE: errors.dfy ===
/**
  The failures the engine can raise. The engine throws JavaScript `Error`s
  with a message per violated bound; here each one is a distinct variant.
 */
module Errors {

  datatype Error =
    | MinesOutOfRange      // mines < 0 or mines > rows*columns/2
    | RowsOutOfRange       // rows outside 1..100
    | ColumnsOutOfRange    // columns outside 1..100
    | CellOutOfBounds      // getCell/getCellState on an index outside the grid
    | MalformedSnapshot    // deserializing a snapshot with fewer rows than it claims

  datatype Result<+T> = Ok(value: T) | Err(error: Error) {
    predicate IsFailure() {
      Err?
    }

    function PropagateFailure<U>(): Result<U>
      requires Err?
    {
      Err(error)
    }

    function Extract(): T
      requires Ok?
    {
      value
    }
  }
}

=== FILE: floodfill.dfy ===
/**
  What the depth-first flood-fill (src/engine/Board.js:180-191) computes:
  it stops only at the border of the revealed region (closure), it reveals a
  cell only next to a revealed cell with no adjacent mine (support), and on a
  board without mines or markers one click reveals everything.
 */
module FloodfillFacts {
  import opened Cells
  import opened Grids
  import opened GameStates
  import opened Boards

  /** `q` was Unclicked in `b` and is Clicked in `r`. */
  ghost predicate NewlyClicked(b: Board, r: Board, q: Pos) {
    && Wf(b) && Wf(r) && SameFrame(b, r) && InBounds(b, q)
    && StateAt(b, q) == Unclicked && StateAt(r, q) == Clicked
  }

  /** Every cell revealed between `b` and `r` that has no adjacent mine has
      no Unclicked neighbour left in `r`. */
  ghost predicate Closed(b: Board, r: Board)
    requires Wf(r)
  {
    forall q :: NewlyClicked(b, r, q) && NeighborMines(r, q) == 0 ==>
      forall n :: InBounds(r, n) && Adjacent(q, n) ==> StateAt(r, n) != Unclicked
  }

  /** Every cell revealed between `b` and `r` is a start cell or sits next to
      a revealed cell with no adjacent mine. */
  ghost predicate Supported(b: Board, r: Board, start: seq<Pos>)
    requires Wf(r)
  {
    forall q :: NewlyClicked(b, r, q) ==>
      q in start || exists z :: Adjacent(q, z) && NewlyClicked(b, r, z) && NeighborMines(r, z) == 0
  }

  lemma GrowsKeepsState(b: Board, r: Board, q: Pos)
    requires Grows(b, r) && InBounds(b, q)
    ensures StateAt(r, q) == StateAt(b, q) || (StateAt(b, q) == Unclicked && StateAt(r, q) == Clicked)
  {
    assert Filled(At(b, q), At(r, q));
  }

  lemma ClosedTrans(a: Board, b: Board, c: Board)
    requires RevealsOnly(a, b) && RevealsOnly(b, c) && Closed(a, b) && Closed(b, c)
    ensures Closed(a, c)
  {
    forall q | NewlyClicked(a, c, q) && NeighborMines(c, q) == 0
      ensures forall n :: InBounds(c, n) && Adjacent(q, n) ==> StateAt(c, n) != Unclicked
    {
      RevealsOnlySameMines(b, c);
      NeighborMinesIgnoresMarkers(b, c, q);
      RevealsOnlyKeepsState(a, b, q);
      if StateAt(b, q) == Clicked {
        assert NewlyClicked(a, b, q);
        forall n | InBounds(c, n) && Adjacent(q, n)
          ensures StateAt(c, n) != Unclicked
        {
          RevealsOnlyKeepsState(b, c, n);
        }
      } else {
        assert NewlyClicked(b, c, q);
      }
    }
  }

  lemma SupportedTrans(a: Board, b: Board, c: Board, ns: seq<Pos>)
    requires |ns| > 0 && RevealsOnly(a, b) && RevealsOnly(b, c)
    requires Supported(a, b, [ns[0]]) && Supported(b, c, ns[1..])
    ensures Supported(a, c, ns)
  {
    var first, rest := ns[0], ns[1..];
    RevealsOnlySameMines(b, c);
    forall q | NewlyClicked(a, c, q)
      ensures q in ns ||
              exists z :: Adjacent(q, z) && NewlyClicked(a, c, z) && NeighborMines(c, z) == 0
    {
      RevealsOnlyKeepsState(a, b, q);
      if StateAt(b, q) == Clicked {
        assert NewlyClicked(a, b, q);
        if q != first {
          var z :| Adjacent(q, z) && NewlyClicked(a, b, z) && NeighborMines(b, z) == 0;
          RevealsOnlyKeepsState(b, c, z);
          NeighborMinesIgnoresMarkers(b, c, z);
          assert NewlyClicked(a, c, z);
        }
      } else {
        assert NewlyClicked(b, c, q);
        if q !in rest {
          var z :| Adjacent(q, z) && NewlyClicked(b, c, z) && NeighborMines(c, z) == 0;
          RevealsOnlyKeepsState(a, b, z);
          assert NewlyClicked(a, c, z);
        }
      }
    }
  }

  /** The first step of `floodfill` newly clicks exactly its own cell. */
  lemma ClickOneFacts(b: Board, p: Pos)
    requires Wf(b) && InBounds(b, p) && StateAt(b, p) == Unclicked
    ensures forall q :: NewlyClicked(b, ClickOne(b, p), q) <==> q == p
  {
  }

  /** Flood-fill leaves no Unclicked neighbour around a revealed zero cell,
      and the start cell is not left Unclicked. */
  lemma {:induction false} FloodfillClosed(b: Board, p: Pos)
    requires Wf(b) && InBounds(b, p)
    ensures Closed(b, Floodfill(b, p))
    ensures StateAt(Floodfill(b, p), p) != Unclicked
    decreases UnclickedCount(b), 0
  {
    var r := Floodfill(b, p);
    if StateAt(b, p) == Unclicked {
      var b1 := ClickOne(b, p);
      ClickOneFacts(b, p);
      if NeighborMines(b1, p) == 0 {
        var ns := NeighborsOf(b1, p);
        NeighborsInBounds(b1, p);
        assert r == FillEach(b1, ns);
        FillEachClosed(b1, ns);
        GrowsKeepsState(b1, r, p);
        forall q | NewlyClicked(b, r, q) && NeighborMines(r, q) == 0
          ensures forall n :: InBounds(r, n) && Adjacent(q, n) ==> StateAt(r, n) != Unclicked
        {
          if q == p {
            forall n | InBounds(r, n) && Adjacent(q, n)
              ensures StateAt(r, n) != Unclicked
            {
              assert n in ns;
              var k :| 0 <= k < |ns| && ns[k] == n;
            }
          } else {
            assert NewlyClicked(b1, r, q);
          }
        }
      }
    }
  }

  lemma {:induction false} FillEachClosed(b: Board, ns: seq<Pos>)
    requires Wf(b) && AllInBounds(b, ns)
    ensures Closed(b, FillEach(b, ns))
    ensures forall k :: 0 <= k < |ns| ==> StateAt(FillEach(b, ns), ns[k]) != Unclicked
    decreases UnclickedCount(b), 1, |ns|
  {
    if ns != [] {
      var b1 := Floodfill(b, ns[0]);
      var r := FillEach(b1, ns[1..]);
      FloodfillClosed(b, ns[0]);
      FillEachClosed(b1, ns[1..]);
      GrowsRevealsOnly(b, b1);
      GrowsRevealsOnly(b1, r);
      ClosedTrans(b, b1, r);
      GrowsKeepsState(b1, r, ns[0]);
      forall k | 1 <= k < |ns|
        ensures StateAt(r, ns[k]) != Unclicked
      {
        assert ns[k] == ns[1..][k - 1];
      }
    }
  }

  /** Flood-fill reveals a cell only at the start or next to a revealed cell
      with no adjacent mine. */
  lemma {:induction false} FloodfillSupported(b: Board, p: Pos)
    requires Wf(b) && InBounds(b, p)
    ensures Supported(b, Floodfill(b, p), [p])
    decreases UnclickedCount(b), 0
  {
    var r := Floodfill(b, p);
    if StateAt(b, p) == Unclicked {
      var b1 := ClickOne(b, p);
      ClickOneFacts(b, p);
      if NeighborMines(b1, p) == 0 {
        var ns := NeighborsOf(b1, p);
        NeighborsInBounds(b1, p);
        assert r == FillEach(b1, ns);
        FillEachSupported(b1, ns);
        GrowsKeepsState(b1, r, p);
        GrowsRevealsOnly(b1, r);
        NeighborMinesIgnoresMarkers(b1, r, p);
        assert NewlyClicked(b, r, p);
        forall q | NewlyClicked(b, r, q)
          ensures q in [p] || exists z :: Adjacent(q, z) && NewlyClicked(b, r, z) && NeighborMines(r, z) == 0
        {
          if q != p {
            assert NewlyClicked(b1, r, q);
            if q in ns {
              assert Adjacent(q, p);
            } else {
              var z :| Adjacent(q, z) && NewlyClicked(b1, r, z) && NeighborMines(r, z) == 0;
              GrowsKeepsState(b, b1, z);
              assert NewlyClicked(b, r, z);
            }
          }
        }
      } else {
        assert r == b1;
      }
    }
  }

  lemma {:induction false} FillEachSupported(b: Board, ns: seq<Pos>)
    requires Wf(b) && AllInBounds(b, ns)
    ensures Supported(b, FillEach(b, ns), ns)
    decreases UnclickedCount(b), 1, |ns|
  {
    if ns != [] {
      var b1 := Floodfill(b, ns[0]);
      var r := FillEach(b1, ns[1..]);
      FloodfillSupported(b, ns[0]);
      FillEachSupported(b1, ns[1..]);
      GrowsRevealsOnly(b, b1);
      GrowsRevealsOnly(b1, r);
      SupportedTrans(b, b1, r, ns);
    }
  }

  // ---------------------------------------------------------------------------
  // The chord

  /** Without an UnclickedMine among them, clicking the cells one by one is
      flood-filling from each in turn. */
  lemma {:induction false} ClickEachIsFillEach(b: Board, ns: seq<Pos>)
    requires Wf(b) && AllInBounds(b, ns)
    requires forall k :: 0 <= k < |ns| ==> StateAt(b, ns[k]) != UnclickedMine
    ensures ClickEach(b, ns) == FillEach(b, ns)
    decreases |ns|
  {
    if ns != [] {
      var b1 := Floodfill(b, ns[0]);
      var rest := ns[1..];
      forall k | 0 <= k < |rest|
        ensures InBounds(b1, rest[k]) && StateAt(b1, rest[k]) != UnclickedMine
      {
        assert rest[k] == ns[k + 1];
        GrowsKeepsState(b, b1, rest[k]);
      }
      ClickEachIsFillEach(b1, rest);
    }
  }

  /** Clicking the cells one by one reveals a cell only at one of them or
      next to a revealed cell with no adjacent mine, and leaves no Unclicked
      cell next to a revealed cell with no adjacent mine. */
  lemma {:induction false} ClickEachSupportedClosed(b: Board, ns: seq<Pos>)
    requires Wf(b) && AllInBounds(b, ns)
    ensures Supported(b, ClickEach(b, ns), ns)
    ensures Closed(b, ClickEach(b, ns))
    decreases |ns|
  {
    if ns != [] {
      var exploding := StateAt(b, ns[0]) == UnclickedMine;
      var b1 := if exploding then Explode(b) else Floodfill(b, ns[0]);
      var rest := ns[1..];
      ClickStepRevealsOnly(b, ns[0], b1);
      assert AllInBounds(b1, rest) by {
        forall k | 0 <= k < |rest|
          ensures InBounds(b1, rest[k])
        {
          assert rest[k] == ns[k + 1];
        }
      }
      var r := ClickEach(b1, rest);
      assert r == ClickEach(b, ns);
      if exploding {
        forall q | NewlyClicked(b, b1, q)
          ensures false
        {
        }
      } else {
        FloodfillSupported(b, ns[0]);
        FloodfillClosed(b, ns[0]);
      }
      ClickEachSupportedClosed(b1, rest);
      SupportedTrans(b, b1, r, ns);
      ClosedTrans(b, b1, r);
    }
  }

  /** `clickAllNeighbors` without an UnclickedMine around `p` is a
      flood-fill from each neighbour in turn, in neighbour order. */
  lemma ChordIsFillEach(b: Board, p: Pos)
    requires Wf(b)
    requires forall q :: InBounds(b, q) && Adjacent(p, q) ==> StateAt(b, q) != UnclickedMine
    ensures AllInBounds(b, NeighborsOf(b, p))
    ensures ClickAllNeighbors(b, p) == FillEach(b, NeighborsOf(b, p))
  {
    var ns := NeighborsOf(b, p);
    NeighborsInBounds(b, p);
    forall k | 0 <= k < |ns|
      ensures StateAt(b, ns[k]) != UnclickedMine
    {
      assert ns[k] in ns;
    }
    ClickEachIsFillEach(b, ns);
  }

  /** Whatever the neighbours hold, the chord reveals a cell only at a
      neighbour of `p` or next to a revealed cell with no adjacent mine, and
      it stops only at the border of the revealed region. */
  lemma ChordSupported(b: Board, p: Pos)
    requires Wf(b)
    ensures Supported(b, ClickAllNeighbors(b, p), NeighborsOf(b, p))
    ensures Closed(b, ClickAllNeighbors(b, p))
  {
    NeighborsInBounds(b, p);
    ClickEachSupportedClosed(b, NeighborsOf(b, p));
  }

  // ---------------------------------------------------------------------------
  // The extent of a click

  /** The shared tail of click and right-click touches mine cells only, so it
      neither reveals nor hides a safe cell and keeps support and closure. */
  lemma SettleKeepsSupportedClosed(b: Board, b1: Board, start: seq<Pos>)
    requires Wf(b) && Wf(b1) && SameFrame(b, b1)
    requires Supported(b, b1, start) && Closed(b, b1)
    ensures Supported(b, Settle(b1).board, start)
    ensures Closed(b, Settle(b1).board)
  {
    var r := Settle(b1).board;
    forall q | InBounds(b, q)
      ensures NewlyClicked(b, r, q) <==> NewlyClicked(b, b1, q)
      ensures StateAt(r, q) == Unclicked <==> StateAt(b1, q) == Unclicked
      ensures NeighborMines(r, q) == NeighborMines(b1, q)
    {
      NeighborMinesIgnoresMarkers(b1, r, q);
      if At(b1, q).mine {
        assert StateAt(b1, q) in MineStates && StateAt(r, q) in MineStates;
      }
    }
  }

  /** Clicking an Unclicked cell reveals a cell only at it or next to a
      revealed cell with no adjacent mine, and stops only at the border of
      the revealed region. */
  lemma ClickUnclickedExtent(b: Board, p: Pos)
    requires Wf(b) && InBounds(b, p) && StateAt(b, p) == Unclicked
    ensures Click(b, p).Ok?
    ensures Supported(b, Click(b, p).value.board, [p])
    ensures Closed(b, Click(b, p).value.board)
  {
    assert ClickStep(b, p) == Floodfill(b, p);
    FloodfillSupported(b, p);
    FloodfillClosed(b, p);
    SettleKeepsSupportedClosed(b, Floodfill(b, p), [p]);
  }

  /** The chord of a click reveals a cell only at a neighbour of `p` or next
      to a revealed cell with no adjacent mine, and stops only at the border
      of the revealed region. */
  lemma ClickChordExtent(b: Board, p: Pos)
    requires Wf(b) && InBounds(b, p) && IsFullyFlaggedCell(b, p)
    ensures Click(b, p).Ok?
    ensures Supported(b, Click(b, p).value.board, NeighborsOf(b, p))
    ensures Closed(b, Click(b, p).value.board)
  {
    assert ClickStep(b, p) == ClickAllNeighbors(b, p);
    ChordSupported(b, p);
    SettleKeepsSupportedClosed(b, ClickAllNeighbors(b, p), NeighborsOf(b, p));
  }

  /** The chord of a right-click is bounded the same way. */
  lemma RightClickChordExtent(b: Board, p: Pos)
    requires Wf(b) && InBounds(b, p) && IsFullyFlaggedCell(b, p)
    ensures RightClick(b, p).Ok?
    ensures Supported(b, RightClick(b, p).value.board, NeighborsOf(b, p))
    ensures Closed(b, RightClick(b, p).value.board)
  {
    assert RightClick(b, p).value == Settle(ClickAllNeighbors(b, p));
    ChordSupported(b, p);
    SettleKeepsSupportedClosed(b, ClickAllNeighbors(b, p), NeighborsOf(b, p));
  }

  // ---------------------------------------------------------------------------
  // A board without mines or markers

  ghost predicate AllUnclicked(b: Board)
    requires Wf(b)
  {
    forall q :: InBounds(b, q) ==> StateAt(b, q) == Unclicked
  }

  function Sign(x: int): int {
    if x > 0 then 1 else if x < 0 then -1 else 0
  }

  function Dist(p: Pos, q: Pos): nat {
    (if p.row <= q.row then q.row - p.row else p.row - q.row)
    + (if p.column <= q.column then q.column - p.column else p.column - q.column)
  }

  /** On a grid where clicked cells have only clicked neighbours, one
      clicked cell makes every cell clicked. */
  lemma {:induction false} ClickedSpreads(r: Board, p: Pos, q: Pos)
    requires Wf(r) && InBounds(r, p) && InBounds(r, q) && StateAt(r, p) == Clicked
    requires forall x, n :: InBounds(r, x) && InBounds(r, n) && Adjacent(x, n) && StateAt(r, x) == Clicked ==>
               StateAt(r, n) == Clicked
    ensures StateAt(r, q) == Clicked
    decreases Dist(p, q)
  {
    if q != p {
      var step := Pos(q.row + Sign(p.row - q.row), q.column + Sign(p.column - q.column));
      assert InBounds(r, step);
      assert Dist(p, step) < Dist(p, q);
      ClickedSpreads(r, p, step);
      assert Adjacent(step, q);
    }
  }

  /** On a board with no mines and no markers, flood-filling from any cell
      reveals every cell. */
  lemma FloodfillRevealsMineFreeBoard(b: Board, p: Pos)
    requires Wf(b) && InBounds(b, p) && AllUnclicked(b)
    ensures forall q :: InBounds(b, q) ==> StateAt(Floodfill(b, p), q) == Clicked
  {
    var r := Floodfill(b, p);
    FloodfillClosed(b, p);
    GrowsRevealsOnly(b, r);
    forall q | InBounds(r, q)
      ensures StateAt(r, q) == Unclicked || NewlyClicked(b, r, q)
    {
      GrowsKeepsState(b, r, q);
    }
    forall x | InBounds(r, x)
      ensures NeighborMines(r, x) == 0
    {
      forall n | InBounds(r, n) && Adjacent(x, n)
        ensures !At(r, n).mine
      {
        assert StateAt(b, n) == Unclicked;
      }
    }
    GrowsKeepsState(b, r, p);
    forall q | InBounds(b, q)
      ensures StateAt(r, q) == Clicked
    {
      ClickedSpreads(r, p, q);
    }
  }

  /** Clicking a board with no mines and no markers reveals every cell and wins. */
  lemma ClickRevealsMineFreeBoard(b: Board, p: Pos)
    requires Wf(b) && InBounds(b, p) && AllUnclicked(b)
    ensures Click(b, p).Ok?
    ensures Click(b, p).value.state == Won
    ensures forall q :: InBounds(b, q) ==> StateAt(Click(b, p).value.board, q) == Clicked
  {
    var b1 := Floodfill(b, p);
    FloodfillRevealsMineFreeBoard(b, p);
    assert ClickStep(b, p) == b1;
    var o := Settle(b1);
    assert Click(b, p).value == o;
    forall q | InBounds(b, q)
      ensures StateAt(o.board, q) == Clicked
    {
      assert !At(b1, q).mine;
    }
    assert !HasClickedMine(b1);
    assert AllSafeRevealed(b1);
  }
}

=== FILE: game.dfy ===
/**
  The game (src/engine/Game.ts, compiled twin src/engine/Game.js): a board
  plus the lifecycle state. Input is forwarded to the board until the game is
  won or lost; afterwards it is ignored. Each move returns a new game value,
  which stands in for the engine's deep copy.
 */
module Games {
  import opened Cells
  import opened Grids
  import opened GameStates
  import opened Errors
  import Boards
  import FloodfillFacts

  datatype Game = Game(board: Boards.Board, state: GameState)

  /** What every game the engine hands out satisfies: a well-formed board
      of consistent cells holding `mines` mines, whose counter is mines minus
      flags; an Idle game has an untouched board, any other state is the one
      the board derives, and a won game has been cleaned up. */
  ghost predicate Inv(g: Game) {
    && Boards.Wf(g.board)
    && Boards.MineCellCount(g.board) == g.board.mines
    && g.board.mineCount == Boards.RemainingMines(g.board)
    && Boards.AllConsistent(g.board)
    && (g.state == Idle ==> Untouched(g.board))
    && (g.state != Idle ==> g.state == Boards.CalculateGameState(g.board))
    && (g.state == Won ==> CleanedUp(g.board))
  }

  /** What the win clean-up leaves: every mine shows FlaggedMine and the
      counter reads 0. */
  ghost predicate CleanedUp(b: Boards.Board)
    requires Boards.Wf(b)
  {
    && (forall q :: Boards.InBounds(b, q) && Boards.At(b, q).mine ==> Boards.StateAt(b, q) == FlaggedMine)
    && b.mineCount == 0
  }

  /** No cell clicked or marked, as the constructor leaves it. */
  ghost predicate Untouched(b: Boards.Board)
    requires Boards.Wf(b)
  {
    forall q :: Boards.InBounds(b, q) ==> Boards.StateAt(b, q) in {Unclicked, UnclickedMine}
  }

  /** The `Game` constructor: a new board with the mines at `placement`, Idle. */
  function NewGame(rows: int, columns: int, mines: int, placement: set<Pos>): (r: Result<Game>)
    requires Boards.ValidateInputs(rows, columns, mines).Ok? ==> Boards.PlacementFits(rows, columns, mines, placement)
    ensures r.Err? <==> Boards.ValidateInputs(rows, columns, mines).Err?
    ensures r.Err? ==> r.error == Boards.ValidateInputs(rows, columns, mines).error
    ensures r.Ok? ==> r.value.state == Idle && Inv(r.value)
    ensures r.Ok? ==> r.value.board.rows == rows && r.value.board.columns == columns
    ensures r.Ok? ==> r.value.board.mines == mines && r.value.board.mineCount == mines
    ensures r.Ok? ==> Boards.MineCellCount(r.value.board) == mines
  {
    var b :- Boards.NewBoard(rows, columns, mines, placement);
    NoFlagsOnNewBoard(b);
    Ok(Game(b, Idle))
  }

  lemma NoFlagsOnNewBoard(b: Boards.Board)
    requires Boards.Wf(b) && Untouched(b)
    ensures Boards.FlagCount(b) == 0
  {
    CountGridPositive(b.grid, Boards.CarriesFlag);
    if Boards.FlagCount(b) > 0 {
      var i, j :| 0 <= i < |b.grid| && 0 <= j < |b.grid[i]| && Boards.CarriesFlag(b.grid[i][j]);
      assert Boards.InBounds(b, Pos(i, j));
    }
  }

  /** `click`: ignored once the game is won or lost; otherwise the board
      acts and its reported state becomes the game state. An index outside
      the grid is an error from the board. Short of a win, a click only
      reveals unmarked cells. */
  function Click(g: Game, p: Pos): (r: Result<Game>)
    requires Boards.Wf(g.board)
    ensures Terminal(g.state) ==> r == Ok(g)
    ensures !Terminal(g.state) ==> (r.Err? <==> !Boards.InBounds(g.board, p))
    ensures r.Err? ==> r.error == CellOutOfBounds
    ensures r.Ok? ==> Boards.Wf(r.value.board) && Boards.SameFrame(g.board, r.value.board)
    ensures r.Ok? ==> Boards.SameMines(g.board, r.value.board)
    ensures !Terminal(g.state) && r.Ok? ==>
              r.value.state != Idle && r.value.state == Boards.CalculateGameState(r.value.board)
    ensures !Terminal(g.state) && r.Ok? ==>
              r.value == Game(Boards.Click(g.board, p).value.board, Boards.Click(g.board, p).value.state)
    ensures r.Ok? && r.value.state != Won ==> Boards.RevealsOnly(g.board, r.value.board)
    ensures !Terminal(g.state) && Boards.InBounds(g.board, p) && Boards.StateAt(g.board, p) == UnclickedMine ==>
              r.Ok? && r.value.state == Lost
    ensures !Terminal(g.state) && Boards.InBounds(g.board, p) && Boards.StateAt(g.board, p) == Unclicked ==>
              r.Ok? && Boards.StateAt(r.value.board, p) == Clicked
  {
    if Terminal(g.state) then Ok(g)
    else
      var o :- Boards.Click(g.board, p);
      assert Boards.StateAt(g.board, p) == UnclickedMine ==> o.state == Lost by {
        if Boards.StateAt(g.board, p) == UnclickedMine {
          Boards.ClickMineLoses(g.board, p);
        }
      }
      assert Boards.StateAt(g.board, p) == Unclicked ==> Boards.StateAt(o.board, p) == Clicked by {
        if Boards.StateAt(g.board, p) == Unclicked {
          Boards.ClickUnclickedReveals(g.board, p);
        }
      }
      Ok(Game(o.board, o.state))
  }

  /** `rightClick`: the same gating around the board's right-click. */
  function RightClick(g: Game, p: Pos): (r: Result<Game>)
    requires Boards.Wf(g.board)
    ensures Terminal(g.state) ==> r == Ok(g)
    ensures !Terminal(g.state) ==> (r.Err? <==> !Boards.InBounds(g.board, p))
    ensures r.Err? ==> r.error == CellOutOfBounds
    ensures r.Ok? ==> Boards.Wf(r.value.board) && Boards.SameFrame(g.board, r.value.board)
    ensures r.Ok? ==> Boards.SameMines(g.board, r.value.board)
    ensures !Terminal(g.state) && r.Ok? ==>
              r.value.state != Idle && r.value.state == Boards.CalculateGameState(r.value.board)
    ensures !Terminal(g.state) && r.Ok? ==>
              r.value == Game(Boards.RightClick(g.board, p).value.board, Boards.RightClick(g.board, p).value.state)
    ensures !Terminal(g.state) && Boards.InBounds(g.board, p) && Boards.StateAt(g.board, p) in UnclickedStates
              && Consistent(Boards.At(g.board, p)) && r.Ok? && r.value.state != Won ==>
              && Boards.StateAt(r.value.board, p) == NextMarker(Boards.StateAt(g.board, p))
              && forall q :: Boards.InBounds(g.board, q) && q != p ==> Boards.At(r.value.board, q) == Boards.At(g.board, q)
  {
    if Terminal(g.state) then Ok(g)
    else
      var o :- Boards.RightClick(g.board, p);
      var cycles := Boards.StateAt(g.board, p) in UnclickedStates && Consistent(Boards.At(g.board, p)) && o.state != Won;
      assert cycles ==> Boards.StateAt(o.board, p) == NextMarker(Boards.StateAt(g.board, p)) by {
        if cycles {
          Boards.RightClickCyclesMarker(g.board, p);
        }
      }
      Ok(Game(o.board, o.state))
  }

  /** Both moves keep the invariant. */
  lemma MovesKeepInv(g: Game, p: Pos)
    requires Inv(g)
    ensures Click(g, p).Ok? ==> Inv(Click(g, p).value)
    ensures RightClick(g, p).Ok? ==> Inv(RightClick(g, p).value)
  {
    if !Terminal(g.state) && Boards.InBounds(g.board, p) {
      Boards.ClickKeepsConsistent(g.board, p);
      Boards.RightClickKeepsConsistent(g.board, p);
      Boards.SameMinesSameMineCellCount(g.board, Click(g, p).value.board);
      Boards.SameMinesSameMineCellCount(g.board, RightClick(g, p).value.board);
      WinningMoveCleansUp(g, p);
    }
  }

  /** A move that wins the game leaves every mine flagged and the counter at 0. */
  lemma WinningMoveCleansUp(g: Game, p: Pos)
    requires Inv(g)
    ensures Click(g, p).Ok? && Click(g, p).value.state == Won ==> CleanedUp(Click(g, p).value.board)
    ensures RightClick(g, p).Ok? && RightClick(g, p).value.state == Won ==> CleanedUp(RightClick(g, p).value.board)
  {
    if !Terminal(g.state) && Boards.InBounds(g.board, p) {
      var c := Click(g, p).value.board;
      var rc := RightClick(g, p).value.board;
      forall q | Boards.InBounds(c, q) && Boards.At(c, q).mine
        ensures Click(g, p).value.state == Won ==> Boards.StateAt(c, q) == FlaggedMine
      {
        assert Boards.At(g.board, q).mine;
      }
      forall q | Boards.InBounds(rc, q) && Boards.At(rc, q).mine
        ensures RightClick(g, p).value.state == Won ==> Boards.StateAt(rc, q) == FlaggedMine
      {
        assert Boards.At(g.board, q).mine;
      }
    }
  }

  /** Won and Lost absorb every input: neither the board nor the state changes. */
  lemma TerminalAbsorbs(g: Game, p: Pos)
    requires Boards.Wf(g.board) && Terminal(g.state)
    ensures Click(g, p) == Ok(g) && RightClick(g, p) == Ok(g)
  {
  }

  /** Once a move has been made the game never returns to Idle. */
  lemma NeverIdleAgain(g: Game, p: Pos)
    requires Boards.Wf(g.board) && g.state != Idle
    ensures Click(g, p).Ok? ==> Click(g, p).value.state != Idle
    ensures RightClick(g, p).Ok? ==> RightClick(g, p).value.state != Idle
  {
  }

  /** A fresh game has a cell without a mine: at most half the cells are mines. */
  lemma FreshGameHasSafeCell(g: Game)
    requires Inv(g) && g.state == Idle
    requires Boards.ValidateInputs(g.board.rows, g.board.columns, g.board.mines).Ok?
    ensures exists q :: Boards.InBounds(g.board, q) && Boards.StateAt(g.board, q) == Unclicked
  {
    var b := g.board;
    if forall i, j :: 0 <= i < |b.grid| && 0 <= j < |b.grid[i]| ==> Boards.IsMineCell(b.grid[i][j]) {
      CountGridFull(b.grid, b.columns, Boards.IsMineCell);
      assert false;
    }
    var i, j :| 0 <= i < |b.grid| && 0 <= j < |b.grid[i]| && !Boards.IsMineCell(b.grid[i][j]);
    assert Boards.InBounds(b, Pos(i, j));
  }

  /** From Idle a right-click starts the game: the state becomes Active. */
  lemma FirstRightClickActivates(g: Game, p: Pos)
    requires Inv(g) && g.state == Idle && Boards.InBounds(g.board, p)
    requires Boards.ValidateInputs(g.board.rows, g.board.columns, g.board.mines).Ok?
    ensures RightClick(g, p).Ok? && RightClick(g, p).value.state == Active
  {
    var b := g.board;
    FreshGameHasSafeCell(g);
    var o := Boards.RightClick(b, p).value;
    var c := RightClickCell(Boards.At(b, p));
    var b1 := Boards.SetCell(b, p, c);
    assert o == Boards.Settle(b1);
    var s := Boards.CalculateGameState(b1);
    assert !Boards.HasClickedMine(b1) by {
      forall q | Boards.InBounds(b1, q)
        ensures Boards.StateAt(b1, q) != ClickedMine
      {
        if q != p {
          assert Boards.StateAt(b, q) in {Unclicked, UnclickedMine};
        }
      }
    }
    if Boards.StateAt(b, p) == Unclicked {
      assert Boards.StateAt(b1, p) == Flagged;
    } else {
      var q :| Boards.InBounds(b, q) && Boards.StateAt(b, q) == Unclicked;
      assert q != p;
      assert Boards.StateAt(b1, q) == Unclicked;
    }
    assert !Boards.AllSafeRevealed(b1);
  }

  /** From Idle, clicking a mine loses. */
  lemma FirstClickOnMineLoses(g: Game, p: Pos)
    requires Boards.Wf(g.board) && Untouched(g.board) && g.state == Idle && Boards.InBounds(g.board, p)
    requires Boards.At(g.board, p).mine
    ensures Click(g, p).Ok? && Click(g, p).value.state == Lost
  {
    Boards.ClickMineLoses(g.board, p);
  }

  /** From Idle, a click on a safe cell never loses: it wins exactly when
      every safe cell is then revealed, and is Active otherwise. */
  lemma FirstSafeClick(g: Game, p: Pos)
    requires Boards.Wf(g.board) && Untouched(g.board) && g.state == Idle && Boards.InBounds(g.board, p)
    requires !Boards.At(g.board, p).mine
    ensures Click(g, p).Ok?
    ensures Click(g, p).value.state in {Active, Won}
    ensures Click(g, p).value.state == Won <==> Boards.AllSafeRevealed(Click(g, p).value.board)
  {
    var b := g.board;
    assert !Boards.HasClickedMine(b) by {
      forall q | Boards.InBounds(b, q)
        ensures Boards.StateAt(b, q) != ClickedMine
      {
        assert Boards.StateAt(b, q) in {Unclicked, UnclickedMine};
      }
    }
    Boards.ClickUnclickedReveals(b, p);
  }

  /** A game with no mines is won by its first click, which reveals every cell. */
  lemma MineFreeGameWonInOneClick(g: Game, p: Pos)
    requires Inv(g) && g.state == Idle && Boards.InBounds(g.board, p)
    requires g.board.mines == 0
    ensures Click(g, p).Ok? && Click(g, p).value.state == Won
    ensures forall q :: Boards.InBounds(g.board, q) ==> Boards.StateAt(Click(g, p).value.board, q) == Clicked
  {
    var b := g.board;
    forall q | Boards.InBounds(b, q)
      ensures Boards.StateAt(b, q) == Unclicked
    {
      CountGridPositive(b.grid, Boards.IsMineCell);
      assert !Boards.IsMineCell(b.grid[q.row][q.column]);
    }
    FloodfillFacts.ClickRevealsMineFreeBoard(b, p);
  }
}

=== FILE: game_state.dfy ===
/** The game lifecycle (src/engine/GameState.js). */
module GameStates {

  datatype GameState = Idle | Active | Won | Lost

  /** Won and Lost end the game: no further input is applied. */
  predicate Terminal(s: GameState) {
    s == Won || s == Lost
  }
}

=== FILE: grids.dfy ===
/**
  Positions on a rectangular grid and counting of the grid entries that
  satisfy a predicate. The board uses these counts for its mine counter and
  for deriving the game state (src/engine/Board.js:87-110).
 */
module Grids {

  /** A `CellIndex`: a row and a column. */
  datatype Pos = Pos(row: int, column: int)

  function Ind(b: bool): nat {
    if b then 1 else 0
  }

  /** Number of entries of `s` satisfying `p`. */
  function CountRow<T>(s: seq<T>, p: T -> bool): (n: nat)
    ensures n <= |s|
  {
    if |s| == 0 then 0 else CountRow(s[..|s| - 1], p) + Ind(p(s[|s| - 1]))
  }

  /** Number of entries of the rows of `g` satisfying `p`. */
  function CountGrid<T>(g: seq<seq<T>>, p: T -> bool): nat
  {
    if |g| == 0 then 0 else CountGrid(g[..|g| - 1], p) + CountRow(g[|g| - 1], p)
  }

  /** The positions in row `i` whose entry satisfies `p`. */
  function RowWhere<T>(s: seq<T>, i: int, p: T -> bool): set<Pos> {
    set j | 0 <= j < |s| && p(s[j]) :: Pos(i, j)
  }

  /** The positions of `g` whose entry satisfies `p`. */
  function Where<T>(g: seq<seq<T>>, p: T -> bool): set<Pos> {
    set i, j | 0 <= i < |g| && 0 <= j < |g[i]| && p(g[i][j]) :: Pos(i, j)
  }

  lemma {:induction false} CountRowUpdate<T>(s: seq<T>, i: int, x: T, p: T -> bool)
    requires 0 <= i < |s|
    ensures CountRow(s[i := x], p) + Ind(p(s[i])) == CountRow(s, p) + Ind(p(x))
    decreases |s|
  {
    var n := |s| - 1;
    var t := s[i := x];
    if i < n {
      assert t[..n] == s[..n][i := x];
      CountRowUpdate(s[..n], i, x, p);
    } else {
      assert t[..n] == s[..n];
    }
  }

  lemma {:induction false} CountGridUpdate<T>(g: seq<seq<T>>, i: int, j: int, x: T, p: T -> bool)
    requires 0 <= i < |g| && 0 <= j < |g[i]|
    ensures CountGrid(g[i := g[i][j := x]], p) + Ind(p(g[i][j])) == CountGrid(g, p) + Ind(p(x))
    decreases |g|
  {
    var n := |g| - 1;
    var h := g[i := g[i][j := x]];
    if i < n {
      assert h[..n] == g[..n][i := g[i][j := x]];
      CountGridUpdate(g[..n], i, j, x, p);
    } else {
      assert h[..n] == g[..n];
      CountRowUpdate(g[i], j, x, p);
    }
  }

  /** The count is positive exactly when some entry satisfies `p`. */
  lemma {:induction false} CountRowPositive<T>(s: seq<T>, p: T -> bool)
    ensures CountRow(s, p) > 0 <==> exists j :: 0 <= j < |s| && p(s[j])
    decreases |s|
  {
    if |s| > 0 {
      var n := |s| - 1;
      CountRowPositive(s[..n], p);
      if exists j :: 0 <= j < |s| && p(s[j]) {
        var j :| 0 <= j < |s| && p(s[j]);
        if j < n {
          assert s[..n][j] == s[j];
        }
      }
      if exists j :: 0 <= j < n && p(s[..n][j]) {
        var j :| 0 <= j < n && p(s[..n][j]);
        assert s[j] == s[..n][j];
      }
    }
  }

  lemma {:induction false} CountGridPositive<T>(g: seq<seq<T>>, p: T -> bool)
    ensures CountGrid(g, p) > 0 <==> exists i, j :: 0 <= i < |g| && 0 <= j < |g[i]| && p(g[i][j])
    decreases |g|
  {
    if |g| > 0 {
      var n := |g| - 1;
      CountGridPositive(g[..n], p);
      CountRowPositive(g[n], p);
      if exists i, j :: 0 <= i < |g| && 0 <= j < |g[i]| && p(g[i][j]) {
        var i, j :| 0 <= i < |g| && 0 <= j < |g[i]| && p(g[i][j]);
        if i < n {
          assert g[..n][i] == g[i];
        }
      }
      if exists i, j :: 0 <= i < n && 0 <= j < |g[..n][i]| && p(g[..n][i][j]) {
        var i, j :| 0 <= i < n && 0 <= j < |g[..n][i]| && p(g[..n][i][j]);
        assert g[i] == g[..n][i];
      }
    }
  }

  /** Two equally long rows whose entries agree under `p` and `q` give the same count. */
  lemma {:induction false} CountRowPointwise<T, U>(s: seq<T>, t: seq<U>, p: T -> bool, q: U -> bool)
    requires |s| == |t|
    requires forall j :: 0 <= j < |s| ==> p(s[j]) == q(t[j])
    ensures CountRow(s, p) == CountRow(t, q)
    decreases |s|
  {
    if |s| > 0 {
      var n := |s| - 1;
      assert forall j :: 0 <= j < n ==> s[..n][j] == s[j] && t[..n][j] == t[j];
      CountRowPointwise(s[..n], t[..n], p, q);
    }
  }

  /** Two grids of the same shape whose entries agree under `p` and `q` give the same count. */
  lemma {:induction false} CountGridPointwise<T, U>(g: seq<seq<T>>, h: seq<seq<U>>, p: T -> bool, q: U -> bool)
    requires |g| == |h|
    requires forall i :: 0 <= i < |g| ==> |g[i]| == |h[i]|
    requires forall i, j :: 0 <= i < |g| && 0 <= j < |g[i]| ==> p(g[i][j]) == q(h[i][j])
    ensures CountGrid(g, p) == CountGrid(h, q)
    decreases |g|
  {
    if |g| > 0 {
      var n := |g| - 1;
      assert forall i :: 0 <= i < n ==> g[..n][i] == g[i] && h[..n][i] == h[i];
      CountGridPointwise(g[..n], h[..n], p, q);
      CountRowPointwise(g[n], h[n], p, q);
    }
  }

  /** When every entry of a `width`-wide grid satisfies `p`, the count is the area. */
  lemma {:induction false} CountGridFull<T>(g: seq<seq<T>>, width: nat, p: T -> bool)
    requires forall i :: 0 <= i < |g| ==> |g[i]| == width
    requires forall i, j :: 0 <= i < |g| && 0 <= j < |g[i]| ==> p(g[i][j])
    ensures CountGrid(g, p) == |g| * width
    decreases |g|
  {
    if |g| > 0 {
      var n := |g| - 1;
      assert forall i :: 0 <= i < n ==> g[..n][i] == g[i];
      CountGridFull(g[..n], width, p);
      CountRowFull(g[n], p);
    }
  }

  lemma {:induction false} CountRowFull<T>(s: seq<T>, p: T -> bool)
    requires forall j :: 0 <= j < |s| ==> p(s[j])
    ensures CountRow(s, p) == |s|
    decreases |s|
  {
    if |s| > 0 {
      var n := |s| - 1;
      assert forall j :: 0 <= j < n ==> s[..n][j] == s[j];
      CountRowFull(s[..n], p);
    }
  }

  /** The recursive count is the size of the set of matching positions. */
  lemma {:induction false} CountRowIsCardinality<T>(s: seq<T>, i: int, p: T -> bool)
    ensures |RowWhere(s, i, p)| == CountRow(s, p)
    decreases |s|
  {
    if |s| > 0 {
      var n := |s| - 1;
      CountRowIsCardinality(s[..n], i, p);
      var last := if p(s[n]) then {Pos(i, n)} else {};
      assert RowWhere(s, i, p) == RowWhere(s[..n], i, p) + last by {
        forall q | q in RowWhere(s, i, p)
          ensures q in RowWhere(s[..n], i, p) + last
        {
          var j :| 0 <= j < |s| && p(s[j]) && q == Pos(i, j);
          if j < n {
            assert s[..n][j] == s[j];
          }
        }
        forall q | q in RowWhere(s[..n], i, p)
          ensures q in RowWhere(s, i, p)
        {
          var j :| 0 <= j < n && p(s[..n][j]) && q == Pos(i, j);
          assert s[j] == s[..n][j];
        }
      }
      assert Pos(i, n) !in RowWhere(s[..n], i, p);
    }
  }

  lemma {:induction false} CountGridIsCardinality<T>(g: seq<seq<T>>, p: T -> bool)
    ensures |Where(g, p)| == CountGrid(g, p)
    decreases |g|
  {
    if |g| > 0 {
      var n := |g| - 1;
      CountGridIsCardinality(g[..n], p);
      CountRowIsCardinality(g[n], n, p);
      var top := Where(g[..n], p);
      var last := RowWhere(g[n], n, p);
      assert Where(g, p) == top + last by {
        forall q | q in Where(g, p)
          ensures q in top + last
        {
          var i, j :| 0 <= i < |g| && 0 <= j < |g[i]| && p(g[i][j]) && q == Pos(i, j);
          if i < n {
            assert g[..n][i] == g[i];
          }
        }
        forall q | q in top
          ensures q in Where(g, p)
        {
          var i, j :| 0 <= i < n && 0 <= j < |g[..n][i]| && p(g[..n][i][j]) && q == Pos(i, j);
          assert g[i] == g[..n][i];
        }
      }
      assert top !! last;
    }
  }
}

=== FILE: snapshot.dfy ===
/**
  Snapshots of a game as plain data, and `deserializeGame`
  (src/engine/Game.ts:47-60, src/engine/Game.js:49-62), which rebuilds a live
  game from one. The engine builds two placeholder 10x10 games with random
  mines and then overwrites every field from the snapshot; here the
  placeholders are parameters, and the result does not depend on them.
 */
module Snapshots {
  import opened Cells
  import opened GameStates
  import opened Errors
  import Boards
  import Games

  /** A cell as plain data: the four private fields of `Cell`. */
  datatype CellData = CellData(isClicked: bool, isMine: bool, isFlagged: bool, isQuestioned: bool)

  /** A board as plain data; `board` is the grid under its field name. */
  datatype BoardData = BoardData(rows: int, columns: int, mines: int, mineCount: int, board: seq<seq<CellData>>)

  /** A game as plain data. */
  datatype GameData = GameData(board: BoardData, gameState: GameState)

  function CellToData(c: Cell): CellData {
    CellData(c.clicked, c.mine, c.flagged, c.questioned)
  }

  /** `new Cell()` followed by copying the snapshot's fields into it. */
  function CellFromData(d: CellData): (c: Cell)
    ensures CellToData(c) == d
  {
    NewCell().(clicked := d.isClicked, mine := d.isMine, flagged := d.isFlagged, questioned := d.isQuestioned)
  }

  lemma CellRoundTrip(c: Cell)
    ensures CellFromData(CellToData(c)) == c
  {
  }

  function Max(a: int, b: int): (m: int)
    ensures a <= m && b <= m && (m == a || m == b)
  {
    if a < b then b else a
  }

  /** The snapshot of a game: every field copied. */
  function Serialize(g: Games.Game): (d: GameData)
    ensures d.gameState == g.state
    ensures d.board.rows == g.board.rows && d.board.columns == g.board.columns
    ensures d.board.mines == g.board.mines && d.board.mineCount == g.board.mineCount
    ensures |d.board.board| == |g.board.grid|
    ensures forall i :: 0 <= i < |g.board.grid| ==> |d.board.board[i]| == |g.board.grid[i]|
  {
    var grid := g.board.grid;
    var cells := seq(|grid|, i requires 0 <= i < |grid| =>
                   seq(|grid[i]|, j requires 0 <= j < |grid[i]| => CellToData(grid[i][j])));
    GameData(BoardData(g.board.rows, g.board.columns, g.board.mines, g.board.mineCount, cells), g.state)
  }

  /** One snapshot row as the restoring loop leaves it: every entry becomes
      a typed cell, and a row shorter than `columns` is extended with fresh
      cells (copying the fields of a missing entry copies nothing). */
  function RestoreRow(row: seq<CellData>, columns: int): (r: seq<Cell>)
    ensures |r| == Max(|row|, columns)
    ensures forall j :: 0 <= j < |row| ==> CellToData(r[j]) == row[j]
    ensures forall j :: |row| <= j < |r| ==> r[j] == NewCell()
  {
    seq(Max(|row|, columns), j requires 0 <= j < Max(|row|, columns) =>
      if j < |row| then CellFromData(row[j]) else NewCell())
  }

  /** The grid after the restoring loop. Rows at or beyond `rows` are not
      visited by the loop; they are converted entry by entry as well. */
  function RestoreGrid(d: BoardData): (g: seq<seq<Cell>>)
    ensures |g| == |d.board|
    ensures forall i :: 0 <= i < |d.board| && i < d.rows ==> g[i] == RestoreRow(d.board[i], d.columns)
    ensures forall i :: 0 <= i < |d.board| && d.rows <= i ==> g[i] == RestoreRow(d.board[i], 0)
  {
    seq(|d.board|, i requires 0 <= i < |d.board| =>
      if i < d.rows then RestoreRow(d.board[i], d.columns) else RestoreRow(d.board[i], 0))
  }

  /** `deserializeGame`. The state and every board field come from the
      snapshot. The restoring loop reads row `row` for every `row < rows`, so
      a snapshot with fewer grid rows than `rows` (and at least one column)
      makes it fail. */
  function Deserialize(d: GameData, placeholderGame: Games.Game, placeholderBoard: Boards.Board): (r: Result<Games.Game>)
    ensures r.Err? <==> d.board.rows > |d.board.board| && d.board.columns > 0
    ensures r.Err? ==> r.error == MalformedSnapshot
    ensures r.Ok? ==> r.value.state == d.gameState
    ensures r.Ok? ==> r.value.board.rows == d.board.rows && r.value.board.columns == d.board.columns
    ensures r.Ok? ==> r.value.board.mines == d.board.mines && r.value.board.mineCount == d.board.mineCount
    ensures r.Ok? ==> |r.value.board.grid| == |d.board.board|
    ensures r.Ok? ==> forall i :: 0 <= i < |d.board.board| ==>
              |r.value.board.grid[i]| == Max(|d.board.board[i]|, if i < d.board.rows then d.board.columns else 0)
    ensures r.Ok? ==> forall i, j :: 0 <= i < |d.board.board| && |d.board.board[i]| <= j < |r.value.board.grid[i]| ==>
              r.value.board.grid[i][j] == NewCell()
    ensures r.Ok? ==> forall i, j :: 0 <= i < |d.board.board| && 0 <= j < |d.board.board[i]| ==>
              j < |r.value.board.grid[i]| && CellToData(r.value.board.grid[i][j]) == d.board.board[i][j]
  {
    if d.board.rows > |d.board.board| && d.board.columns > 0 then Err(MalformedSnapshot)
    else
      var game := placeholderGame.(state := d.gameState);
      var board := placeholderBoard.(rows := d.board.rows, columns := d.board.columns, mines := d.board.mines,
                                     mineCount := d.board.mineCount, grid := RestoreGrid(d.board));
      Ok(game.(board := board))
  }

  /** Neither placeholder game survives restoring. */
  lemma DeserializeIgnoresPlaceholders(d: GameData, g1: Games.Game, b1: Boards.Board, g2: Games.Game, b2: Boards.Board)
    ensures Deserialize(d, g1, b1) == Deserialize(d, g2, b2)
  {
  }

  /** Restoring the snapshot of a game gives back the same game: every
      cell, the counter and the state, so it plays on exactly as before. */
  lemma DeserializeSerialize(g: Games.Game, placeholderGame: Games.Game, placeholderBoard: Boards.Board)
    requires Boards.Wf(g.board)
    ensures Deserialize(Serialize(g), placeholderGame, placeholderBoard) == Ok(g)
  {
    var d := Serialize(g);
    var r := Deserialize(d, placeholderGame, placeholderBoard);
    var grid := RestoreGrid(d.board);
    forall i | 0 <= i < |grid|
      ensures grid[i] == g.board.grid[i]
    {
      assert grid[i] == RestoreRow(d.board.board[i], d.board.columns);
      forall j | 0 <= j < |grid[i]|
        ensures grid[i][j] == g.board.grid[i][j]
      {
        CellRoundTrip(g.board.grid[i][j]);
      }
    }
    assert r.value.board == g.board;
  }

  /** The snapshots that restore to a playable board are exactly those
      whose grid has `rows` rows, none longer than `columns`. */
  lemma DeserializedBoardWf(d: GameData, placeholderGame: Games.Game, placeholderBoard: Boards.Board)
    requires Deserialize(d, placeholderGame, placeholderBoard).Ok?
    ensures Boards.Wf(Deserialize(d, placeholderGame, placeholderBoard).value.board) <==>
              && |d.board.board| == d.board.rows && 0 <= d.board.columns
              && forall i :: 0 <= i < |d.board.board| ==> |d.board.board[i]| <= d.board.columns
  {
    var b := Deserialize(d, placeholderGame, placeholderBoard).value.board;
    if Boards.Wf(b) {
      forall i | 0 <= i < |d.board.board|
        ensures |d.board.board[i]| <= d.board.columns
      {
        assert |b.grid[i]| == Max(|d.board.board[i]|, d.board.columns);
      }
    }
  }

  /** A well-shaped snapshot restores to a playable game whose snapshot is
      the one it came from. */
  lemma SerializeDeserialize(d: GameData, placeholderGame: Games.Game, placeholderBoard: Boards.Board)
    requires |d.board.board| == d.board.rows && 0 <= d.board.columns
    requires forall i :: 0 <= i < |d.board.board| ==> |d.board.board[i]| == d.board.columns
    ensures Deserialize(d, placeholderGame, placeholderBoard).Ok?
    ensures Boards.Wf(Deserialize(d, placeholderGame, placeholderBoard).value.board)
    ensures Serialize(Deserialize(d, placeholderGame, placeholderBoard).value) == d
  {
    DeserializedBoardWf(d, placeholderGame, placeholderBoard);
    var g := Deserialize(d, placeholderGame, placeholderBoard).value;
    var e := Serialize(g);
    forall i | 0 <= i < |d.board.board|
      ensures e.board.board[i] == d.board.board[i]
    {
      assert |e.board.board[i]| == |d.board.board[i]|;
    }
    assert e.board.board == d.board.board;
  }
}
